=== FILE: README.md ===
# Home-screen icon sandbox: a Dafny model

The sandbox shows a phone home screen whose app icons are round rigid bodies. The
bodies fall under a gravity direction that the user tilts. The direction comes from
the device's orientation sensor, or on a desktop from a drag pad and the arrow keys.
This project models the sandbox's core in Dafny over exact `real` arithmetic and
proves properties of that model.

- **Engine.** A world of bodies inside a `width` x `height` box is advanced one step
  at a time (`engine.dfy`, `Engine.Step`). A step has four phases:
  1. gravity, damping and a speed cap (`integration.dfy`);
  2. explicit Euler integration of position and rotation (`integration.dfy`);
  3. wall collisions (`walls.dfy`);
  4. circle-circle collisions for every pair `i < j` in lexicographic order
     (`collision.dfy`, `pairs.dfy`). These use soft positional separation, a normal
     impulse from the smaller restitution, a friction impulse from the smaller
     friction, and a simplified spin update.
- **Initial layout.** Icons are placed on a three-column grid, all at rest and all the
  same size (`layout.dfy`). The six shipped icons serve as a fixture.
- **Sensor tilt.** The sensor hook's logic (`device_tilt.dfy`):
  - detecting the orientation API;
  - the permission request, modelled as two transitions, begin and complete;
  - mapping a reading `(beta, gamma)` to a clamped gravity direction;
  - the rule that readings move gravity only while listening.
- **Desktop tilt.** The desktop control's logic (`desktop_tilt.dfy`):
  - arrow-key steps clamped to [-1, 1];
  - the pointer-to-gravity mapping of the drag pad;
  - the indicator dot that maps gravity back to a position on the pad.

`vectors.dfy` holds the 2-D vector algebra. `bodies.dfy` holds the body and world
records.

`Math.sqrt` has no Dafny counterpart. Every function that needs it takes it as a
parameter `sqrt: real -> real`. The lemmas that need exact roots assume
`IsSqrt(sqrt)`: for `x >= 0`, `sqrt(x) >= 0` and `sqrt(x) * sqrt(x) == x`.

## Model

Every source path below lies under `src/frontend/src/features/homeScreenSandbox/`.

| member | source | states |
|---|---|---|
| Integration.ApplyForces | src/frontend/src/features/homeScreenSandbox/physics/engine.ts:20-28 | gravity and damping change only the velocities. The spin is scaled by the angular damping. Without gravity each velocity component is scaled by the damping. Identity, position and rotation are kept. |
| Integration.GravityAcceleration | src/frontend/src/features/homeScreenSandbox/physics/engine.ts:20-28 | with gravity, the velocity differs from the gravity-free damped velocity by exactly `damping * gravityScale * dt` times the tilt direction |
| Integration.ClampSpeed | src/frontend/src/features/homeScreenSandbox/physics/engine.ts:30-36 | a velocity no faster than 1000 is left as it is |
| Integration.ClampSpeedBound | src/frontend/src/features/homeScreenSandbox/physics/engine.ts:30-36 | after the cap the speed is at most 1000. A faster input comes out at exactly 1000, as a positive multiple of itself. |
| Integration.ClampSpeedIdempotent | src/frontend/src/features/homeScreenSandbox/physics/engine.ts:30-36 | capping an already capped velocity changes nothing |
| Integration.ClampSpeedExactlyWhenFast | src/frontend/src/features/homeScreenSandbox/physics/engine.ts:30-36 | the cap changes a velocity exactly when its squared speed exceeds 1000 squared |
| Integration.IntegrateVelocity | src/frontend/src/features/homeScreenSandbox/physics/engine.ts:20-36 | phase 1 keeps the body's identity, position and rotation, and damps the spin by the angular damping. The new velocity is the forced velocity after the speed cap, so it is the forced velocity itself when that is no faster than 1000. |
| Integration.IntegrateVelocityBound | src/frontend/src/features/homeScreenSandbox/physics/engine.ts:20-36 | every body leaves phase 1 no faster than 1000 |
| Integration.DampingDissipates | src/frontend/src/features/homeScreenSandbox/physics/engine.ts:25-28 | without gravity, damping factors in [0, 1] never raise the squared speed or the spin magnitude |
| Integration.IntegratePosition | src/frontend/src/features/homeScreenSandbox/physics/engine.ts:38-41 | phase 2 keeps velocities and spin. A zero time step changes nothing. |
| Integration.IntegratePositionDisplacement | src/frontend/src/features/homeScreenSandbox/physics/engine.ts:38-41 | the Euler step moves the centre by `velocity * dt` and turns the body by `spin * dt` |
| Integration.IntegratePositionReversible | src/frontend/src/features/homeScreenSandbox/physics/engine.ts:38-41 | advancing by `dt` and then by `-dt` restores the body |
| Integration.IntegrateBody | src/frontend/src/features/homeScreenSandbox/physics/engine.ts:20-41 | the per-body work of the first loop keeps id, radius, mass, restitution and friction. The body takes the capped velocity of phase 1 and the damped spin, then moves by that velocity times `dt` and turns by that spin times `dt`. |
| Integration.IntegrateBodyTravel | src/frontend/src/features/homeScreenSandbox/physics/engine.ts:20-41 | with an exact square root, a body moves at most `1000 * dt` in one step |
| Walls.ResolveLeft | src/frontend/src/features/homeScreenSandbox/physics/engine.ts:58-63 | a disc crossing `x = 0` is moved to `x = r`, with `y`, `vy` kept and `r * spin = -vy`. Any other disc is untouched. |
| Walls.ResolveRight | src/frontend/src/features/homeScreenSandbox/physics/engine.ts:65-70 | a disc crossing `x = width` is moved to `width - r`, with `y`, `vy` kept and `r * spin = -vy`. Any other disc is untouched. |
| Walls.ResolveTop | src/frontend/src/features/homeScreenSandbox/physics/engine.ts:72-77 | a disc crossing `y = 0` is moved to `y = r`, with `x`, `vx` kept and `r * spin = vx`. Any other disc is untouched. |
| Walls.ResolveBottom | src/frontend/src/features/homeScreenSandbox/physics/engine.ts:79-84 | a disc crossing `y = height` is moved to `height - r`, with `x`, `vx` kept and `r * spin = vx`. Any other disc is untouched. |
| Walls.ResolveBounds | src/frontend/src/features/homeScreenSandbox/physics/engine.ts:57-85 | a body already inside the walls passes through unchanged. Identity and rotation are always kept. |
| Walls.ResolveBoundsContains | src/frontend/src/features/homeScreenSandbox/physics/engine.ts:57-85 | when `2r <= width` and `2r <= height`, the result satisfies `r <= x <= width - r` and `r <= y <= height - r` |
| Walls.ResolveBoundsIdempotent | src/frontend/src/features/homeScreenSandbox/physics/engine.ts:59-80 | for a disc that fits the world (`2r <= width` and `2r <= height`), resolving the walls twice is resolving them once. A disc wider than the world can keep bouncing on a second pass. |
| Walls.BottomBounce | src/frontend/src/features/homeScreenSandbox/physics/engine.ts:79-84 | a disc through the floor ends at `height - r`, with `vy = -abs(vy) * e` (so `vy <= 0` and `abs(vy') <= abs(vy)`) and `spin = vx / r` |
| Walls.LeftBounce | src/frontend/src/features/homeScreenSandbox/physics/engine.ts:58-63 | a disc through the left wall ends at `x = r`, with `0 <= vx' = abs(vx) * e <= abs(vx)`. When no floor or ceiling is touched, `spin = -vy / r`. |
| Walls.RightBounce | src/frontend/src/features/homeScreenSandbox/physics/engine.ts:65-70 | a disc through the right wall ends at `x = width - r`, with `vx' <= 0` and `abs(vx') = abs(vx) * e <= abs(vx)`. When no floor or ceiling is touched, `spin = -vy / r`. |
| Walls.TopBounce | src/frontend/src/features/homeScreenSandbox/physics/engine.ts:72-77 | a disc through the ceiling ends at `y = r`, with `0 <= vy' = abs(vy) * e <= abs(vy)` and `spin = vx / r` |
| Collision.Separate | src/frontend/src/features/homeScreenSandbox/physics/engine.ts:98-106 | the push-apart keeps velocities, spins and the sum of the two centres, and moves their offset by `overlap` along the normal |
| Collision.ApplyImpulses | src/frontend/src/features/homeScreenSandbox/physics/engine.ts:108-142 | a pair that is not approaching along the normal is untouched. Positions and rotations are kept. The spin changes satisfy `rA * dSpinA = -rB * dSpinB`. On an approaching pair `rA * dSpinA` is the normal impulse's y-component over the total mass. |
| Collision.Collide | src/frontend/src/features/homeScreenSandbox/physics/engine.ts:87-144 | a pair at distance 0 or at least `rA + rB` is untouched. The sum of the centres, identities and rotations are always kept. |
| CollisionProperties.NormalIsUnit | src/frontend/src/features/homeScreenSandbox/physics/engine.ts:95-96 | the collision normal has unit length |
| CollisionProperties.CollideSeparatesExactly | src/frontend/src/features/homeScreenSandbox/physics/engine.ts:93-106 | after positional correction the centres of an overlapping pair are exactly `rA + rB` apart |
| CollisionProperties.ImpulsesConserveMomentum | src/frontend/src/features/homeScreenSandbox/physics/engine.ts:115-137 | the normal and friction impulses together keep `mA vA + mB vB` |
| CollisionProperties.CollideConservesMomentum | src/frontend/src/features/homeScreenSandbox/physics/engine.ts:87-144 | resolving a pair keeps its total linear momentum |
| CollisionProperties.ApproachingChanges | src/frontend/src/features/homeScreenSandbox/physics/engine.ts:115-137 | on an approaching pair, the relative velocity changes by `j * n - f * t` and the momentum is kept |
| CollisionProperties.ImpulseResponse | src/frontend/src/features/homeScreenSandbox/physics/engine.ts:114-137 | on an approaching pair, the normal relative velocity becomes `-min(eA, eB)` times its old value, and the tangential one is scaled by `1 - min(fA, fB)` |
| CollisionProperties.CollideSeparatingKeepsMotion | src/frontend/src/features/homeScreenSandbox/physics/engine.ts:114 | an overlapping pair already moving apart only has its positions corrected. Velocities and spins are untouched. |
| CollisionProperties.CollideApproachingResponse | src/frontend/src/features/homeScreenSandbox/physics/engine.ts:87-142 | with restitution and friction in [0, 1], an overlapping approaching pair leaves moving apart, or at rest relative to each other, along the normal at `min(eA, eB)` times its approach speed, with its slip scaled by `1 - min(fA, fB)` |
| PairSweep.PairsFrom | src/frontend/src/features/homeScreenSandbox/physics/engine.ts:50-54 | every generated pair `(i, j)` satisfies `i <= p.0 < p.1 < n` |
| PairSweep.PairsOrder | src/frontend/src/features/homeScreenSandbox/physics/engine.ts:50-54 | the step visits exactly the pairs `i < j < n`, each once, in strictly increasing lexicographic order |
| PairSweep.ResolveAt | src/frontend/src/features/homeScreenSandbox/physics/engine.ts:52 | one pair resolution replaces bodies `i` and `j` by the result of resolving that pair, changes no other body, keeps every body's identity, and changes nothing unless the two overlap |
| PairSweep.ApplyPairs | src/frontend/src/features/homeScreenSandbox/physics/engine.ts:50-54 | resolving any in-range sequence of pairs keeps the collection's length, order and identities |
| PairSweep.ApplyPairsAppend | src/frontend/src/features/homeScreenSandbox/physics/engine.ts:50-54 | resolving `a + b` is resolving `a` and then `b` |
| PairSweep.ApplyPairsSeparated | src/frontend/src/features/homeScreenSandbox/physics/engine.ts:93 | a collection with no overlapping pair is left unchanged by the pair phase |
| PairSweep.ResolveRow | src/frontend/src/features/homeScreenSandbox/physics/engine.ts:51-53 | the in-place inner loop equals resolving row `i` of pairs as a fold |
| PairSweep.ResolveAllPairs | src/frontend/src/features/homeScreenSandbox/physics/engine.ts:50-54 | the in-place nested loop equals resolving `Pairs(n)` as a fold |
| PairSweep.ResolveAtConservesMomentum | src/frontend/src/features/homeScreenSandbox/physics/engine.ts:50-54 | resolving one pair keeps the total linear momentum of the whole collection |
| PairSweep.ApplyPairsConservesMomentum | src/frontend/src/features/homeScreenSandbox/physics/engine.ts:50-54 | the pair phase, and any in-range sequence of pair resolutions, keeps the total linear momentum of the collection |
| Engine.NewEngine | src/frontend/src/features/homeScreenSandbox/physics/engine.ts:7-16 | the engine keeps the bodies and the world size, fixes gravity scale 500 and damping factors 0.98 and 0.95. Both factors are fractions, so they dissipate. |
| Engine.Step | src/frontend/src/features/homeScreenSandbox/physics/engine.ts:18-55 | a step keeps the parameters and every body's id, radius, mass, restitution and friction, and the length and order of the bodies. Its helpers `IntegrateAll` and `BoundAll` are the first two `forEach` passes. |
| Engine.RunStep | src/frontend/src/features/homeScreenSandbox/physics/engine.ts:18-55 | the source's loops (two in-place passes, then the nested pair loop) compute exactly `Step` |
| Engine.StepSingleBodyInBounds | src/frontend/src/features/homeScreenSandbox/physics/engine.ts:18-85 | a lone body that fits the world ends every step inside the walls |
| Engine.StepWithoutContacts | src/frontend/src/features/homeScreenSandbox/physics/engine.ts:44-54 | when no two bodies overlap after the wall phase, each body ends the step as integrated and then wall-resolved |
| Engine.StepWithoutContactsInBounds | src/frontend/src/features/homeScreenSandbox/physics/engine.ts:18-85 | when no two bodies overlap after the wall phase and every body fits the world, every body ends the step inside the walls |
| Engine.FrameDelta | src/frontend/src/features/homeScreenSandbox/components/IconPhysicsCanvas.tsx:71 | the frame's time step is the elapsed time in seconds, capped at 0.033 |
| Engine.InitialEngine | src/frontend/src/features/homeScreenSandbox/components/IconPhysicsCanvas.tsx:62-65 | the engine the canvas builds holds one body per asset, with that asset's id, under the fixed parameters. With positive sides every body is valid. |
| Engine.Reset | src/frontend/src/features/homeScreenSandbox/components/IconPhysicsCanvas.tsx:118-124 | reset replaces the bodies by the initial layout the canvas builds for the given size, one body at rest per asset, and keeps the engine's parameters |
| Layout.RowCount | src/frontend/src/features/homeScreenSandbox/physics/initialLayout.ts:17 | `Math.ceil(n / 3)` is the integer `(n + 2) / 3` |
| Layout.GridRow | src/frontend/src/features/homeScreenSandbox/physics/initialLayout.ts:24 | `Math.floor(i / 3)` is the integer `i / 3` |
| Layout.PlaceIcon | src/frontend/src/features/homeScreenSandbox/physics/initialLayout.ts:26-38 | body `i` carries asset `i`'s id and the shared radius `min(w, h) * 0.15 / 2`, and starts at rest with mass 1, restitution 0.4 and friction 0.3 |
| Layout.CreateInitialLayout | src/frontend/src/features/homeScreenSandbox/physics/initialLayout.ts:22-42 | one body per asset, in asset order, each built for its index |
| Layout.LayoutPosition | src/frontend/src/features/homeScreenSandbox/physics/initialLayout.ts:14-31 | body `i` sits at `(w/4 * (i mod 3 + 1), h/(ceil(n/3) + 2) * (i div 3 + 1.5))` |
| Layout.LayoutInside | src/frontend/src/features/homeScreenSandbox/physics/initialLayout.ts:16-30 | with positive sides, `x` is one of `w/4`, `w/2`, `3w/4`, and the centre lies strictly inside `(0, w) x (0, h)` |
| Layout.LayoutDistinct | src/frontend/src/features/homeScreenSandbox/physics/initialLayout.ts:23-31 | distinct indices start at distinct positions when both sides are positive |
| Layout.LayoutWithinWalls | src/frontend/src/features/homeScreenSandbox/physics/initialLayout.ts:14-31 | with at most 54 icons every starting disc lies inside the walls |
| Layout.ShippedLayoutIds | src/frontend/src/features/homeScreenSandbox/iconAssets.ts:7-38 | the six shipped icons give six bodies with pairwise distinct ids |
| Layout.ShippedLayoutExample | src/frontend/src/features/homeScreenSandbox/physics/initialLayout.ts:14-30 | a 300 x 600 viewport gives radius 22.5, icon 0 at (75, 225) and icon 3 at (75, 375) |
| DeviceTilt.DetectAvailability | src/frontend/src/features/homeScreenSandbox/hooks/useDeviceTilt.ts:23-36 | without a window nothing changes. Otherwise availability equals the API's presence, and an API with `requestPermission` needs permission. An API without it is granted at once. Gravity, denial and the request flag are kept. |
| DeviceTilt.BeginRequest | src/frontend/src/features/homeScreenSandbox/hooks/useDeviceTilt.ts:39-44 | without the orientation API or without a `requestPermission` function the request is a no-op. Otherwise only `isRequesting` becomes true. |
| DeviceTilt.CompleteRequest | src/frontend/src/features/homeScreenSandbox/hooks/useDeviceTilt.ts:46-59 | "granted" sets granted and clears denied. Any other answer or a failure sets denied and keeps granted. Either way the request is no longer running. |
| DeviceTilt.RequestPermission | src/frontend/src/features/homeScreenSandbox/hooks/useDeviceTilt.ts:39-60 | a whole request on an askable platform ends not running. On any other platform it changes nothing. |
| DeviceTilt.PermissionFlow | src/frontend/src/features/homeScreenSandbox/hooks/useDeviceTilt.ts:15-64 | from the initial state, with the API present, listening starts at once exactly when no permission is needed. Otherwise it starts exactly on a "granted" answer. |
| DeviceTilt.UnavailableNeverListens | src/frontend/src/features/homeScreenSandbox/hooks/useDeviceTilt.ts:23-64 | without the API the hook never listens, so gravity stays at its initial (0, 1) |
| DeviceTilt.GrantIsSticky | src/frontend/src/features/homeScreenSandbox/hooks/useDeviceTilt.ts:46-56 | a later request never revokes a grant. A refusal after a grant leaves both flags set. |
| DeviceTilt.Normalize | src/frontend/src/features/homeScreenSandbox/hooks/useDeviceTilt.ts:75-76 | a normalised reading lies in [-1, 1] |
| DeviceTilt.NormalizeExact | src/frontend/src/features/homeScreenSandbox/hooks/useDeviceTilt.ts:75-76 | inside the full-scale angle the reading is recovered exactly. Beyond it the result saturates at +-1. |
| DeviceTilt.OrientationGravity | src/frontend/src/features/homeScreenSandbox/hooks/useDeviceTilt.ts:69-78 | the gravity from a reading is always in [-1, 1]^2 |
| DeviceTilt.OrientationSaturates | src/frontend/src/features/homeScreenSandbox/hooks/useDeviceTilt.ts:75-76 | 45 degrees of roll or more gives `gx = +-1`, and 90 degrees of pitch or more gives `gy = +-1` |
| DeviceTilt.OrientationRoundTrip | src/frontend/src/features/homeScreenSandbox/hooks/useDeviceTilt.ts:69-76 | within +-45 degrees of roll and +-90 of pitch, `45 gx = gamma` and `90 gy = beta`. A missing reading is level (0, 0). |
| DeviceTilt.OnOrientation | src/frontend/src/features/homeScreenSandbox/hooks/useDeviceTilt.ts:64-78 | an event sets gravity from the reading exactly when the API is available and permission is granted. Otherwise nothing changes. |
| DesktopTilt.HandleKeyDown | src/frontend/src/features/homeScreenSandbox/components/DesktopTiltControl.tsx:46-68 | a non-arrow key emits nothing. Left and Right move only `x` by 0.1, floored at -1 or capped at 1. Up and Down do the same for `y`. |
| DesktopTilt.KeyKeepsRange | src/frontend/src/features/homeScreenSandbox/components/DesktopTiltControl.tsx:46-68 | from gravity in [-1, 1]^2 every key press stays in [-1, 1]^2 |
| DesktopTilt.OppositeKeysCancel | src/frontend/src/features/homeScreenSandbox/components/DesktopTiltControl.tsx:50-61 | away from the clamp, Right undoes Left, Left undoes Right, and likewise for Up and Down |
| DesktopTilt.RepeatedLeft | src/frontend/src/features/homeScreenSandbox/components/DesktopTiltControl.tsx:51-53 | `n` presses of Left give `x = max(-1, x - 0.1 n)` and keep `y` |
| DesktopTilt.LeftSaturates | src/frontend/src/features/homeScreenSandbox/components/DesktopTiltControl.tsx:51-53 | twenty presses of Left reach -1 from anywhere in range |
| DesktopTilt.PadFraction | src/frontend/src/features/homeScreenSandbox/components/DesktopTiltControl.tsx:33-35 | the pointer fraction times the pad size is the pointer's offset from the pad's corner |
| DesktopTilt.PointerGravity | src/frontend/src/features/homeScreenSandbox/components/DesktopTiltControl.tsx:30-42 | nothing is emitted without a pad. Otherwise the emitted gravity is `2 f - 1` on each axis, where `f` is the pointer's fraction of the pad, and it is in [-1, 1]^2 exactly when the pointer is on the pad. |
| DesktopTilt.FractionToGravity | src/frontend/src/features/homeScreenSandbox/components/DesktopTiltControl.tsx:38-39 | the pad's centre maps to level gravity (0, 0) |
| DesktopTilt.FractionInRange | src/frontend/src/features/homeScreenSandbox/components/DesktopTiltControl.tsx:38-39 | fractions in [0, 1] are exactly the gravities in [-1, 1] |
| DesktopTilt.Indicator | src/frontend/src/features/homeScreenSandbox/components/DesktopTiltControl.tsx:76-77 | level gravity puts the indicator at the pad's centre (50 %, 50 %) |
| DesktopTilt.IndicatorFollowsPointer | src/frontend/src/features/homeScreenSandbox/components/DesktopTiltControl.tsx:38-39 | the indicator of a pointer-set gravity is the pointer's fraction in percent |
| DesktopTilt.PointerAtIndicator | src/frontend/src/features/homeScreenSandbox/components/DesktopTiltControl.tsx:76-77 | placing the pointer at the indicator reproduces the gravity |
| DesktopTilt.IndicatorRange | src/frontend/src/features/homeScreenSandbox/components/DesktopTiltControl.tsx:76-77 | gravity in [-1, 1] is exactly an indicator within [0, 100] % |
| DesktopTilt.PadCorners | src/frontend/src/features/homeScreenSandbox/components/DesktopTiltControl.tsx:34-39 | the pad's top-left corner is gravity (-1, -1) and its bottom-right corner (1, 1) |
| DesktopTilt.IndicatorCorners | src/frontend/src/features/homeScreenSandbox/components/DesktopTiltControl.tsx:76-77 | gravity (-1, -1) puts the indicator at (0 %, 0 %), the pad's top-left corner, and (1, 1) at (100 %, 100 %) |
| DesktopTilt.OnPadEvent | src/frontend/src/features/homeScreenSandbox/components/DesktopTiltControl.tsx:16-28 | pressing starts a drag and emits the pointer's gravity. Moving during a drag emits the pointer's gravity; moving otherwise emits nothing. Releasing or leaving the pad ends the drag and emits nothing. |
| DesktopTilt.DragSession | src/frontend/src/features/homeScreenSandbox/components/DesktopTiltControl.tsx:16-42 | after a press every move emits the gravity under the pointer; after a release or leave, moves emit nothing |

## Left out

- IEEE-754 behaviour: rounding, NaN and Infinity, and bit-identical results. The model computes over exact reals and claims nothing about floating-point error.
- `Math.sqrt` is a parameter of the functions that use it. Properties that depend on its value assume an exact non-negative root.
- Division by zero:
  - A body of zero radius or mass makes the source divide by zero. `ValidBody` (positive radius and mass) is therefore required wherever the source divides by them.
  - A pad with zero width or height makes the source divide by zero: a non-zero offset gives an infinite fraction, and a zero offset gives NaN. `PadFraction`, `PointerGravity` and `OnPadEvent` require a pad with positive size.
- Engine.Step: no bounds invariant holds for the whole step. The pair phase runs after the wall phase and can push a body slightly outside the walls. Bounds are proved for the wall phase (`ResolveBoundsContains`), for a lone body (`StepSingleBodyInBounds`), and for a step in which no two bodies touch after the wall phase (`StepWithoutContactsInBounds`).
- The 0.033-second cap on the time step is modelled by `FrameDelta`. It is not a precondition of `Step`, because the engine itself accepts any step.
- No energy or torque claims are made. The spin update `+-impulseY / radius` is modelled as written.
- Rendering and the frame loop are browser I/O: image loading, canvas drawing, device-pixel-ratio scaling and `requestAnimationFrame`. Only the time-step cap, the initial engine and the reset are modelled.
- React plumbing and `console.error`:
  - hook state, effects, `addEventListener` and `removeEventListener`;
  - `async`/`await` scheduling.

  The permission request is modelled as `BeginRequest` followed by `CompleteRequest`.
- The sensor hook reads `DeviceOrientationEvent.requestPermission` without checking that the event type exists. On a platform without the API this would throw. The model treats such a platform as having no request function, so the request is a no-op.
- The presentational components are not modelled: the page, the permission panel, the controls bar and the device frame. Neither is the tilt-source choice or the desktop gravity hook, which is a bare state holder reset to (0, 1).
- The icon asset field `label` is named `caption`, because `label` is a reserved word in Dafny. Only the id reaches the bodies.
- Layout.LayoutWithinWalls: the result is proved only for at most 54 icons. The first and last rows sit 1.5 vertical gaps, `1.5 * height / (rows + 2)`, from the top and bottom walls. Beyond 18 rows that distance can be less than the icon radius `0.075 * min(width, height)`, so a disc can start across a wall.
- Engine.InitialEngine: the canvas reruns its engine setup whenever the tilt direction changes (IconPhysicsCanvas.tsx:115), so every tilt change rebuilds the bodies from the initial layout. The model gives the engine that one setup builds. It does not model when the setup reruns, because that is React effect scheduling.
- Engine.Reset: uses the current viewport size for the new layout but keeps the world size the engine was built with, as the source does.

=== FILE: bodies.dfy ===
/** The simulation's data model: circular rigid bodies and the world parameters. */
module Bodies {
  import opened Vectors

  datatype Body = Body(
    id: string,
    position: Vec2,
    velocity: Vec2,
    rotation: real,        // radians
    angularVelocity: real, // radians per second
    radius: real,
    mass: real,
    restitution: real,
    friction: real)

  datatype WorldParams = WorldParams(
    width: real,
    height: real,
    gravityScale: real,
    damping: real,
    angularDamping: real)

  /** What the engine needs of every body it divides by: a positive radius and mass. */
  predicate ValidBody(b: Body) {
    b.radius > 0.0 && b.mass > 0.0
  }

  predicate ValidBodies(bs: seq<Body>) {
    forall k :: 0 <= k < |bs| ==> ValidBody(bs[k])
  }

  /** Restitution and friction are fractions. */
  predicate Coefficients(b: Body) {
    0.0 <= b.restitution <= 1.0 && 0.0 <= b.friction <= 1.0
  }

  /** The attributes fixed for a body's lifetime are the same in `a` and `b`. */
  predicate SameIdentity(a: Body, b: Body) {
    && a.id == b.id
    && a.radius == b.radius
    && a.mass == b.mass
    && a.restitution == b.restitution
    && a.friction == b.friction
  }

  /** Two body collections are the same bodies, in the same order, up to motion state. */
  predicate SameBodies(s: seq<Body>, t: seq<Body>) {
    |s| == |t| && forall k :: 0 <= k < |s| ==> SameIdentity(s[k], t[k])
  }

  /** The body's disc lies inside the `width` x `height` world. */
  predicate InBounds(b: Body, width: real, height: real) {
    && b.radius <= b.position.x <= width - b.radius
    && b.radius <= b.position.y <= height - b.radius
  }

  lemma {:induction false} SameBodiesTransitive(s: seq<Body>, t: seq<Body>, u: seq<Body>)
    requires SameBodies(s, t) && SameBodies(t, u)
    ensures SameBodies(s, u)
  {
  }

  lemma SameBodiesKeepValid(s: seq<Body>, t: seq<Body>)
    requires SameBodies(s, t) && ValidBodies(s)
    ensures ValidBodies(t)
  {
    forall k | 0 <= k < |t| ensures ValidBody(t[k]) {
      assert SameIdentity(s[k], t[k]);
    }
  }
}

=== FILE: collision.dfy ===
/** Phase 4's work on one pair of bodies: soft positional separation along the
    centre line, a normal impulse with the smaller restitution, a tangential
    friction impulse with the smaller friction, and the simplified spin update. */
module Collision {
  import opened Vectors
  import opened Bodies

  /** Vector from the centre of `a` to the centre of `b`. */
  function Delta(a: Body, b: Body): (r: Vec2) {
    Sub(b.position, a.position)
  }

  /** The pair overlaps at a non-zero distance: the only case the engine resolves. */
  predicate Overlapping(a: Body, b: Body, sqrt: real -> real) {
    var distance := Length(Delta(a, b), sqrt);
    distance < a.radius + b.radius && distance > 0.0
  }

  /** Velocity of `b` relative to `a`. */
  function RelativeVelocity(a: Body, b: Body): (r: Vec2) {
    Sub(b.velocity, a.velocity)
  }

  /** The collision tangent: the normal turned a quarter turn. */
  function Tangent(n: Vec2): (t: Vec2) {
    Vec2(-n.y, n.x)
  }

  /** Total linear momentum of the pair. */
  function Momentum(a: Body, b: Body): (r: Vec2) {
    Vec2(a.mass * a.velocity.x + b.mass * b.velocity.x, a.mass * a.velocity.y + b.mass * b.velocity.y)
  }

  /** Size of the normal impulse: the approach speed along `n`, times one plus the
      smaller restitution. */
  function NormalImpulse(a: Body, b: Body, n: Vec2): (j: real) {
    -(1.0 + Min(a.restitution, b.restitution)) * Dot(RelativeVelocity(a, b), n)
  }

  /** Size of the friction impulse: the slip along the tangent, times the smaller
      friction. */
  function FrictionImpulse(a: Body, b: Body, n: Vec2): (f: real) {
    Dot(RelativeVelocity(a, b), Tangent(n)) * Min(a.friction, b.friction)
  }

  /** Pushes `a` back and `b` forward along the normal by half the overlap each. */
  function Separate(a: Body, b: Body, n: Vec2, overlap: real): (r: (Body, Body))
    ensures SameIdentity(a, r.0) && SameIdentity(b, r.1)
    ensures r.0.velocity == a.velocity && r.1.velocity == b.velocity
    ensures r.0.angularVelocity == a.angularVelocity && r.1.angularVelocity == b.angularVelocity
    ensures Add(r.0.position, r.1.position) == Add(a.position, b.position)
    ensures Delta(r.0, r.1) == Vec2(Delta(a, b).x + n.x * overlap, Delta(a, b).y + n.y * overlap)
  {
    var sepX := n.x * overlap / 2.0;
    var sepY := n.y * overlap / 2.0;
    (a.(position := Vec2(a.position.x - sepX, a.position.y - sepY)),
     b.(position := Vec2(b.position.x + sepX, b.position.y + sepY)))
  }

  /** The two velocities after a normal impulse of size `j` along `n` and a friction
      impulse of size `f` along `t`, shared out by the masses `ma` and `mb`: each body
      takes the share given by the other's mass. */
  function Impulsed(va: Vec2, vb: Vec2, ma: real, mb: real, j: real, f: real, n: Vec2, t: Vec2): (r: (Vec2, Vec2))
    requires ma + mb != 0.0
  {
    var totalMass := ma + mb;
    var impulseX := j * n.x / totalMass;
    var impulseY := j * n.y / totalMass;
    (Vec2(va.x - impulseX * mb + f * t.x * mb / totalMass, va.y - impulseY * mb + f * t.y * mb / totalMass),
     Vec2(vb.x + impulseX * ma - f * t.x * ma / totalMass, vb.y + impulseY * ma - f * t.y * ma / totalMass))
  }

  /** Normal impulse, friction impulse and spin update, applied only when the bodies
      approach each other along the normal `n`. */
  function ApplyImpulses(a: Body, b: Body, n: Vec2): (r: (Body, Body))
    requires ValidBody(a) && ValidBody(b)
    ensures SameIdentity(a, r.0) && SameIdentity(b, r.1)
    ensures r.0.position == a.position && r.1.position == b.position
    ensures r.0.rotation == a.rotation && r.1.rotation == b.rotation
    ensures Dot(RelativeVelocity(a, b), n) >= 0.0 ==> r == (a, b)
    ensures a.radius * (r.0.angularVelocity - a.angularVelocity) == b.radius * (b.angularVelocity - r.1.angularVelocity)
    ensures Dot(RelativeVelocity(a, b), n) < 0.0 ==>
      a.radius * (r.0.angularVelocity - a.angularVelocity) == NormalImpulse(a, b, n) * n.y / (a.mass + b.mass)
  {
    var relativeVelocity := Dot(RelativeVelocity(a, b), n);
    if relativeVelocity < 0.0 then
      var impulse := NormalImpulse(a, b, n);
      var totalMass := a.mass + b.mass;
      var impulseY := impulse * n.y / totalMass;
      // friction along the tangent (-ny, nx), from the relative velocity before the impulse
      var frictionImpulse := FrictionImpulse(a, b, n);
      var v := Impulsed(a.velocity, b.velocity, a.mass, b.mass, impulse, frictionImpulse, n, Tangent(n));
      var a' := a.(velocity := v.0, angularVelocity := a.angularVelocity + impulseY / a.radius);
      var b' := b.(velocity := v.1, angularVelocity := b.angularVelocity - impulseY / b.radius);
      (a', b')
    else
      (a, b)
  }

  /** One pair of bodies: nothing happens unless they overlap at a non-zero distance. */
  function Collide(a: Body, b: Body, sqrt: real -> real): (r: (Body, Body))
    requires ValidBody(a) && ValidBody(b)
    ensures SameIdentity(a, r.0) && SameIdentity(b, r.1)
    ensures r.0.rotation == a.rotation && r.1.rotation == b.rotation
    ensures Add(r.0.position, r.1.position) == Add(a.position, b.position)
    ensures !Overlapping(a, b, sqrt) ==> r == (a, b)
  {
    var dx := b.position.x - a.position.x;
    var dy := b.position.y - a.position.y;
    var distance := Length(Vec2(dx, dy), sqrt);
    var minDistance := a.radius + b.radius;
    if distance < minDistance && distance > 0.0 then
      var n := Vec2(dx / distance, dy / distance);
      var s := Separate(a, b, n, minDistance - distance);
      ApplyImpulses(s.0, s.1, n)
    else
      (a, b)
  }
}

module CollisionProperties {
  import opened Vectors
  import opened Bodies
  import opened Collision

  /** Unit collision normal from `a` towards `b`. */
  function Normal(a: Body, b: Body, sqrt: real -> real): (n: Vec2)
    requires Length(Delta(a, b), sqrt) != 0.0
  {
    var d := Length(Delta(a, b), sqrt);
    Vec2(Delta(a, b).x / d, Delta(a, b).y / d)
  }

  lemma {:induction false} NormalIsUnit(a: Body, b: Body, sqrt: real -> real)
    requires IsSqrt(sqrt) && Length(Delta(a, b), sqrt) > 0.0
    ensures NormSq(Normal(a, b, sqrt)) == 1.0
  {
    var v := Delta(a, b);
    var d := Length(v, sqrt);
    NormSqNonNegative(v);
    assert d * d == NormSq(v);
    var n := Normal(a, b, sqrt);
    assert n.x * d == v.x && n.y * d == v.y;
    var q := NormSq(n);
    calc {
      (q * d) * d;
      (n.x * d) * (n.x * d) + (n.y * d) * (n.y * d);
      v.x * v.x + v.y * v.y;
      d * d;
      (1.0 * d) * d;
    }
    CancelFactor(q * d, 1.0 * d, d);
    CancelFactor(q, 1.0, d);
  }

  /** How `Collide` decomposes on an overlapping pair. */
  lemma CollideUnfold(a: Body, b: Body, sqrt: real -> real)
    requires ValidBody(a) && ValidBody(b) && Overlapping(a, b, sqrt)
    ensures var n := Normal(a, b, sqrt);
      var s := Separate(a, b, n, a.radius + b.radius - Length(Delta(a, b), sqrt));
      Collide(a, b, sqrt) == ApplyImpulses(s.0, s.1, n)
  {
  }

  /** Moving the centres apart along the unit normal by the overlap makes their
      offset the normal scaled by the contact distance. */
  lemma SeparatedOffset(a: Body, b: Body, n: Vec2, d: real, m: real)
    requires n.x * d == Delta(a, b).x && n.y * d == Delta(a, b).y
    ensures var s := Separate(a, b, n, m - d);
      Delta(s.0, s.1) == Vec2(n.x * m, n.y * m)
  {
    var s := Separate(a, b, n, m - d);
    calc {
      Delta(s.0, s.1).x;
      Delta(a, b).x + n.x * (m - d);
      n.x * d + n.x * (m - d);
      n.x * m;
    }
    calc {
      Delta(s.0, s.1).y;
      Delta(a, b).y + n.y * (m - d);
      n.y * d + n.y * (m - d);
      n.y * m;
    }
  }

  lemma ScaledUnitNormSq(n: Vec2, m: real)
    requires NormSq(n) == 1.0
    ensures NormSq(Vec2(n.x * m, n.y * m)) == m * m
  {
    calc {
      NormSq(Vec2(n.x * m, n.y * m));
      (n.x * m) * (n.x * m) + (n.y * m) * (n.y * m);
      (n.x * n.x + n.y * n.y) * (m * m);
      1.0 * (m * m);
    }
  }

  /** The normal scaled back by the distance is the centre offset. */
  lemma NormalTimesDistance(a: Body, b: Body, sqrt: real -> real)
    requires Length(Delta(a, b), sqrt) != 0.0
    ensures var n, d := Normal(a, b, sqrt), Length(Delta(a, b), sqrt);
      n.x * d == Delta(a, b).x && n.y * d == Delta(a, b).y
  {
  }

  /** Positional correction leaves two overlapping bodies exactly touching. */
  lemma {:induction false} CollideSeparatesExactly(a: Body, b: Body, sqrt: real -> real)
    requires IsSqrt(sqrt) && ValidBody(a) && ValidBody(b)
    requires Overlapping(a, b, sqrt)
    ensures var r := Collide(a, b, sqrt);
      Length(Delta(r.0, r.1), sqrt) == a.radius + b.radius
  {
    var d := Length(Delta(a, b), sqrt);
    var m := a.radius + b.radius;
    var n := Normal(a, b, sqrt);
    NormalIsUnit(a, b, sqrt);
    NormalTimesDistance(a, b, sqrt);
    CollideUnfold(a, b, sqrt);
    var s := Separate(a, b, n, m - d);
    SeparatedOffset(a, b, n, d, m);
    var r := Collide(a, b, sqrt);
    assert Delta(r.0, r.1) == Delta(s.0, s.1);
    ScaledUnitNormSq(n, m);
    SqrtOfSquare(sqrt, m);
  }

  /** Opposite mass-weighted velocity changes shift the relative velocity by the
      full impulse and leave the total momentum alone, whatever the masses. */
  lemma ImpulseAlgebra(va: real, vb: real, ma: real, mb: real, j: real, f: real)
    requires ma + mb != 0.0
    ensures var ra := va - j / (ma + mb) * mb + f * mb / (ma + mb);
      var rb := vb + j / (ma + mb) * ma - f * ma / (ma + mb);
      rb - ra == vb - va + j - f && ma * ra + mb * rb == ma * va + mb * vb
  {
    var t := ma + mb;
    assert j / t * ma + j / t * mb == j / t * t;
    assert f * ma / t + f * mb / t == f * t / t;
    assert ma * (j / t * mb) == mb * (j / t * ma);
    assert ma * (f * mb / t) == mb * (f * ma / t);
  }

  /** Shifting a vector by `j` along the unit normal and by `-f` along the tangent
      adds `j` to its normal component and `-f` to its tangential one. */
  lemma ShiftedDots(v: Vec2, n: Vec2, j: real, f: real)
    requires NormSq(n) == 1.0
    ensures var t := Tangent(n);
      var w := Vec2(v.x + j * n.x - f * t.x, v.y + j * n.y - f * t.y);
      Dot(w, n) == Dot(v, n) + j && Dot(w, t) == Dot(v, t) - f
  {
    var t := Tangent(n);
    assert n.x * n.x + n.y * n.y == 1.0;
    assert t.x * t.x + t.y * t.y == 1.0;
    assert t.x * n.x + t.y * n.y == 0.0 by {
      assert t.x == -n.y && t.y == n.x;
    }
    assert (v.x + j * n.x - f * t.x) * n.x == v.x * n.x + j * (n.x * n.x) - f * (t.x * n.x);
    assert (v.y + j * n.y - f * t.y) * n.y == v.y * n.y + j * (n.y * n.y) - f * (t.y * n.y);
    assert j * (n.x * n.x) + j * (n.y * n.y) == j * (n.x * n.x + n.y * n.y);
    assert f * (t.x * n.x) + f * (t.y * n.y) == f * (t.x * n.x + t.y * n.y);
    assert (v.x + j * n.x - f * t.x) * t.x == v.x * t.x + j * (t.x * n.x) - f * (t.x * t.x);
    assert (v.y + j * n.y - f * t.y) * t.y == v.y * t.y + j * (t.y * n.y) - f * (t.y * t.y);
    assert j * (t.x * n.x) + j * (t.y * n.y) == j * (t.x * n.x + t.y * n.y);
    assert f * (t.x * t.x) + f * (t.y * t.y) == f * (t.x * t.x + t.y * t.y);
  }

  /** The response algebra on a relative velocity `v`: with `j` the restitution impulse
      and `f` the friction impulse it determines, the shifted velocity has its normal
      component reversed and scaled by `e`, and its tangential one scaled by `1 - mu`. */
  lemma ResponseDots(v: Vec2, n: Vec2, j: real, f: real, e: real, mu: real)
    requires NormSq(n) == 1.0
    requires j == -(1.0 + e) * Dot(v, n) && f == Dot(v, Tangent(n)) * mu
    ensures var t := Tangent(n);
      var w := Vec2(v.x + j * n.x - f * t.x, v.y + j * n.y - f * t.y);
      Dot(w, n) == -e * Dot(v, n) && Dot(w, t) == (1.0 - mu) * Dot(v, t)
  {
    ShiftedDots(v, n, j, f);
  }

  /** The velocities `ApplyImpulses` gives an approaching pair, by name. */
  lemma ApproachingVelocities(a: Body, b: Body, n: Vec2)
    requires ValidBody(a) && ValidBody(b)
    requires Dot(RelativeVelocity(a, b), n) < 0.0
    ensures var r := ApplyImpulses(a, b, n);
      var v := Impulsed(a.velocity, b.velocity, a.mass, b.mass, NormalImpulse(a, b, n), FrictionImpulse(a, b, n), n, Tangent(n));
      r.0.velocity == v.0 && r.1.velocity == v.1
  {
  }

  /** The velocity algebra of the impulses on both axes: the relative velocity moves by
      `j * n - f * t` and the mass-weighted sum of the velocities is kept. */
  lemma {:induction false} ImpulsePair(va: Vec2, vb: Vec2, ma: real, mb: real, j: real, f: real, n: Vec2, t: Vec2)
    requires ma + mb != 0.0
    ensures var r := Impulsed(va, vb, ma, mb, j, f, n, t);
      && r.1.x - r.0.x == vb.x - va.x + j * n.x - f * t.x
      && r.1.y - r.0.y == vb.y - va.y + j * n.y - f * t.y
      && ma * r.0.x + mb * r.1.x == ma * va.x + mb * vb.x
      && ma * r.0.y + mb * r.1.y == ma * va.y + mb * vb.y
  {
    ImpulseAlgebra(va.x, vb.x, ma, mb, j * n.x, f * t.x);
    ImpulseAlgebra(va.y, vb.y, ma, mb, j * n.y, f * t.y);
  }

  /** An approaching pair's impulses change the relative velocity by the normal
      impulse along the normal, less the friction impulse along the tangent, and keep
      the total momentum. */
  lemma {:induction false} ApproachingChanges(a: Body, b: Body, n: Vec2)
    requires ValidBody(a) && ValidBody(b)
    requires Dot(RelativeVelocity(a, b), n) < 0.0
    ensures var r := ApplyImpulses(a, b, n);
      var t := Tangent(n);
      var j := NormalImpulse(a, b, n);
      var f := FrictionImpulse(a, b, n);
      && RelativeVelocity(r.0, r.1).x == RelativeVelocity(a, b).x + j * n.x - f * t.x
      && RelativeVelocity(r.0, r.1).y == RelativeVelocity(a, b).y + j * n.y - f * t.y
      && Momentum(r.0, r.1) == Momentum(a, b)
  {
    ApproachingVelocities(a, b, n);
    ImpulsePair(a.velocity, b.velocity, a.mass, b.mass, NormalImpulse(a, b, n), FrictionImpulse(a, b, n), n, Tangent(n));
  }

  /** On an approaching pair the impulses reverse the normal relative velocity,
      scaled by the smaller restitution, and scale the tangential relative velocity
      by one minus the smaller friction. */
  lemma {:induction false} ImpulseResponse(a: Body, b: Body, n: Vec2)
    requires ValidBody(a) && ValidBody(b)
    requires NormSq(n) == 1.0
    requires Dot(RelativeVelocity(a, b), n) < 0.0
    ensures var r := ApplyImpulses(a, b, n);
      && Dot(RelativeVelocity(r.0, r.1), n) == -Min(a.restitution, b.restitution) * Dot(RelativeVelocity(a, b), n)
      && Dot(RelativeVelocity(r.0, r.1), Tangent(n))
         == (1.0 - Min(a.friction, b.friction)) * Dot(RelativeVelocity(a, b), Tangent(n))
  {
    var t := Tangent(n);
    var j := NormalImpulse(a, b, n);
    var f := FrictionImpulse(a, b, n);
    ApproachingChanges(a, b, n);
    ResponseDots(RelativeVelocity(a, b), n, j, f, Min(a.restitution, b.restitution), Min(a.friction, b.friction));
    var r := ApplyImpulses(a, b, n);
    assert RelativeVelocity(r.0, r.1)
      == Vec2(RelativeVelocity(a, b).x + j * n.x - f * t.x, RelativeVelocity(a, b).y + j * n.y - f * t.y);
  }

  /** The normal and friction impulses together conserve the pair's linear momentum. */
  lemma {:induction false} ImpulsesConserveMomentum(a: Body, b: Body, n: Vec2)
    requires ValidBody(a) && ValidBody(b)
    ensures var r := ApplyImpulses(a, b, n);
      Momentum(r.0, r.1) == Momentum(a, b)
  {
    if Dot(RelativeVelocity(a, b), n) < 0.0 {
      ApproachingChanges(a, b, n);
    }
  }

  /** Resolving a pair conserves its total linear momentum. */
  lemma {:induction false} CollideConservesMomentum(a: Body, b: Body, sqrt: real -> real)
    requires ValidBody(a) && ValidBody(b)
    ensures var r := Collide(a, b, sqrt);
      Momentum(r.0, r.1) == Momentum(a, b)
  {
    if Overlapping(a, b, sqrt) {
      var d := Length(Delta(a, b), sqrt);
      var n := Vec2(Delta(a, b).x / d, Delta(a, b).y / d);
      var s := Separate(a, b, n, a.radius + b.radius - d);
      assert Collide(a, b, sqrt) == ApplyImpulses(s.0, s.1, n);
      ImpulsesConserveMomentum(s.0, s.1, n);
      assert Momentum(s.0, s.1) == Momentum(a, b);
    }
  }

  /** An overlapping pair that is already separating along the normal is only pushed
      apart: its velocities and spins are untouched. */
  lemma {:induction false} CollideSeparatingKeepsMotion(a: Body, b: Body, sqrt: real -> real)
    requires ValidBody(a) && ValidBody(b)
    requires Overlapping(a, b, sqrt)
    requires Dot(RelativeVelocity(a, b), Normal(a, b, sqrt)) >= 0.0
    ensures var r := Collide(a, b, sqrt);
      && r.0.velocity == a.velocity && r.1.velocity == b.velocity
      && r.0.angularVelocity == a.angularVelocity && r.1.angularVelocity == b.angularVelocity
  {
    var n := Normal(a, b, sqrt);
    var s := Separate(a, b, n, a.radius + b.radius - Length(Delta(a, b), sqrt));
    CollideUnfold(a, b, sqrt);
    assert RelativeVelocity(s.0, s.1) == RelativeVelocity(a, b);
  }

  /** `-e * rel` is non-negative for a non-negative `e` and a negative `rel`. */
  lemma ReversedNonNegative(e: real, rel: real)
    requires 0.0 <= e && rel < 0.0
    ensures 0.0 <= -e * rel
  {
    assert -e * rel == e * -rel;
    MulNonNegative(e, -rel);
  }

  /** Pushing an approaching pair apart along a unit normal does not change how it
      approaches, so the impulses then act on it as on the unmoved pair. */
  lemma {:induction false} SeparatedResponse(a: Body, b: Body, n: Vec2, overlap: real)
    requires ValidBody(a) && ValidBody(b) && Coefficients(a) && Coefficients(b)
    requires NormSq(n) == 1.0 && Dot(RelativeVelocity(a, b), n) < 0.0
    ensures var s := Separate(a, b, n, overlap);
      var r := ApplyImpulses(s.0, s.1, n);
      && Dot(RelativeVelocity(r.0, r.1), n) == -Min(a.restitution, b.restitution) * Dot(RelativeVelocity(a, b), n)
      && Dot(RelativeVelocity(r.0, r.1), n) >= 0.0
      && Dot(RelativeVelocity(r.0, r.1), Tangent(n))
         == (1.0 - Min(a.friction, b.friction)) * Dot(RelativeVelocity(a, b), Tangent(n))
  {
    var s := Separate(a, b, n, overlap);
    assert RelativeVelocity(s.0, s.1) == RelativeVelocity(a, b);
    ImpulseResponse(s.0, s.1, n);
    ReversedNonNegative(Min(a.restitution, b.restitution), Dot(RelativeVelocity(a, b), n));
  }

  /** Along the normal, an overlapping, approaching pair leaves the collision moving
      apart (or at rest relative to each other) at the smaller restitution times its
      approach speed. */
  lemma {:induction false} CollideApproachingNormal(a: Body, b: Body, sqrt: real -> real)
    requires IsSqrt(sqrt) && ValidBody(a) && ValidBody(b) && Coefficients(a) && Coefficients(b)
    requires Overlapping(a, b, sqrt)
    requires Dot(RelativeVelocity(a, b), Normal(a, b, sqrt)) < 0.0
    ensures var r := Collide(a, b, sqrt);
      var n := Normal(a, b, sqrt);
      && Dot(RelativeVelocity(r.0, r.1), n) == -Min(a.restitution, b.restitution) * Dot(RelativeVelocity(a, b), n)
      && Dot(RelativeVelocity(r.0, r.1), n) >= 0.0
  {
    var n := Normal(a, b, sqrt);
    var overlap := a.radius + b.radius - Length(Delta(a, b), sqrt);
    var s := Separate(a, b, n, overlap);
    assert Collide(a, b, sqrt) == ApplyImpulses(s.0, s.1, n) by {
      CollideUnfold(a, b, sqrt);
    }
    assert NormSq(n) == 1.0 by {
      NormalIsUnit(a, b, sqrt);
    }
    SeparatedResponse(a, b, n, overlap);
  }

  /** Along the tangent, the slip of an overlapping, approaching pair is scaled by one
      minus the smaller friction. */
  lemma {:induction false} CollideApproachingSlip(a: Body, b: Body, sqrt: real -> real)
    requires IsSqrt(sqrt) && ValidBody(a) && ValidBody(b) && Coefficients(a) && Coefficients(b)
    requires Overlapping(a, b, sqrt)
    requires Dot(RelativeVelocity(a, b), Normal(a, b, sqrt)) < 0.0
    ensures var r := Collide(a, b, sqrt);
      var n := Normal(a, b, sqrt);
      Dot(RelativeVelocity(r.0, r.1), Tangent(n))
        == (1.0 - Min(a.friction, b.friction)) * Dot(RelativeVelocity(a, b), Tangent(n))
  {
    var n := Normal(a, b, sqrt);
    var overlap := a.radius + b.radius - Length(Delta(a, b), sqrt);
    var s := Separate(a, b, n, overlap);
    assert Collide(a, b, sqrt) == ApplyImpulses(s.0, s.1, n) by {
      CollideUnfold(a, b, sqrt);
    }
    assert NormSq(n) == 1.0 by {
      NormalIsUnit(a, b, sqrt);
    }
    SeparatedResponse(a, b, n, overlap);
  }

  /** An overlapping, approaching pair leaves the collision moving apart (or at rest
      relative to each other) along the normal, at the smaller restitution times its
      approach speed, with its tangential slip scaled by one minus the smaller friction. */
  lemma {:induction false} CollideApproachingResponse(a: Body, b: Body, sqrt: real -> real)
    requires IsSqrt(sqrt) && ValidBody(a) && ValidBody(b) && Coefficients(a) && Coefficients(b)
    requires Overlapping(a, b, sqrt)
    requires Dot(RelativeVelocity(a, b), Normal(a, b, sqrt)) < 0.0
    ensures var r := Collide(a, b, sqrt);
      var n := Normal(a, b, sqrt);
      && Dot(RelativeVelocity(r.0, r.1), n) == -Min(a.restitution, b.restitution) * Dot(RelativeVelocity(a, b), n)
      && Dot(RelativeVelocity(r.0, r.1), n) >= 0.0
      && Dot(RelativeVelocity(r.0, r.1), Tangent(n))
         == (1.0 - Min(a.friction, b.friction)) * Dot(RelativeVelocity(a, b), Tangent(n))
  {
    CollideApproachingNormal(a, b, sqrt);
    CollideApproachingSlip(a, b, sqrt);
  }
}

=== FILE: desktop_tilt.dfy ===
/** The manual tilt source for desktops: arrow keys nudge the gravity direction, a drag
    pad maps the pointer to it, and an indicator dot shows it on the pad. Gravity
    components are meant to live in [-1, 1]. */
module DesktopTilt {
  import opened Wrappers
  import opened Vectors

  /** Change of one gravity component per arrow-key press. */
  const KeyStep: real := 0.1

  /** Both components in [-1, 1]. */
  predicate InRange(g: Vec2) {
    -1.0 <= g.x <= 1.0 && -1.0 <= g.y <= 1.0
  }

  /** The gravity an arrow key produces, or `None` for any other key (which is then left
      to the browser). Left and Up decrease a component, floored at -1; Right and Down
      increase it, capped at 1; the other component is copied. */
  function HandleKeyDown(g: Vec2, key: string): (r: Option<Vec2>)
    ensures r.None? <==> key !in {"ArrowLeft", "ArrowRight", "ArrowUp", "ArrowDown"}
    ensures key == "ArrowLeft" || key == "ArrowRight" ==> r.Some? && r.value.y == g.y
    ensures key == "ArrowUp" || key == "ArrowDown" ==> r.Some? && r.value.x == g.x
    ensures key == "ArrowLeft" ==> r.value.x == (if g.x - KeyStep < -1.0 then -1.0 else g.x - KeyStep)
    ensures key == "ArrowRight" ==> r.value.x == (if g.x + KeyStep > 1.0 then 1.0 else g.x + KeyStep)
    ensures key == "ArrowUp" ==> r.value.y == (if g.y - KeyStep < -1.0 then -1.0 else g.y - KeyStep)
    ensures key == "ArrowDown" ==> r.value.y == (if g.y + KeyStep > 1.0 then 1.0 else g.y + KeyStep)
  {
    if key == "ArrowLeft" then Some(g.(x := Max(-1.0, g.x - KeyStep)))
    else if key == "ArrowRight" then Some(g.(x := Min(1.0, g.x + KeyStep)))
    else if key == "ArrowUp" then Some(g.(y := Max(-1.0, g.y - KeyStep)))
    else if key == "ArrowDown" then Some(g.(y := Min(1.0, g.y + KeyStep)))
    else None
  }

  /** The gravity after pressing `key` `n` times, each press acting on the last result. */
  function PressRepeatedly(g: Vec2, key: string, n: nat): (r: Vec2)
    ensures key !in {"ArrowLeft", "ArrowRight", "ArrowUp", "ArrowDown"} ==> r == g
    decreases n
  {
    if n == 0 then g
    else match HandleKeyDown(g, key)
      case None => g
      case Some(next) => PressRepeatedly(next, key, n - 1)
  }

  /** Starting in range, every key press stays in range. */
  lemma KeyKeepsRange(g: Vec2, key: string)
    requires InRange(g)
    ensures HandleKeyDown(g, key).Some? ==> InRange(HandleKeyDown(g, key).value)
  {
  }

  /** Away from the floor, Right undoes Left; away from the cap, Left undoes Right. The
      same holds for Down and Up. */
  lemma OppositeKeysCancel(g: Vec2)
    requires InRange(g)
    ensures g.x >= -1.0 + KeyStep ==> HandleKeyDown(HandleKeyDown(g, "ArrowLeft").value, "ArrowRight").value == g
    ensures g.x <= 1.0 - KeyStep ==> HandleKeyDown(HandleKeyDown(g, "ArrowRight").value, "ArrowLeft").value == g
    ensures g.y >= -1.0 + KeyStep ==> HandleKeyDown(HandleKeyDown(g, "ArrowUp").value, "ArrowDown").value == g
    ensures g.y <= 1.0 - KeyStep ==> HandleKeyDown(HandleKeyDown(g, "ArrowDown").value, "ArrowUp").value == g
  {
  }

  /** Holding Left moves x down by one step a press until it sits at -1, and leaves y
      alone: `n` presses give `max(-1, x - n * 0.1)`. */
  lemma {:induction false} RepeatedLeft(g: Vec2, n: nat)
    requires InRange(g)
    ensures PressRepeatedly(g, "ArrowLeft", n) == Vec2(Max(-1.0, g.x - n as real * KeyStep), g.y)
    decreases n
  {
    if n > 0 {
      var next := HandleKeyDown(g, "ArrowLeft").value;
      RepeatedLeft(next, n - 1);
      if g.x - KeyStep < -1.0 {
        assert next.x == -1.0;
      }
    }
  }

  /** Twenty presses of Left reach the floor from anywhere in range. */
  lemma LeftSaturates(g: Vec2)
    requires InRange(g)
    ensures PressRepeatedly(g, "ArrowLeft", 20).x == -1.0
  {
    RepeatedLeft(g, 20);
  }

  /** The on-screen rectangle of the drag pad. */
  datatype PadRect = PadRect(left: real, top: real, width: real, height: real)

  /** A pointer position as a fraction of the pad: 0 at the left/top edge, 1 at the
      right/bottom edge. */
  function PadFraction(pad: PadRect, clientX: real, clientY: real): (f: Vec2)
    requires pad.width > 0.0 && pad.height > 0.0
    ensures f.x * pad.width == clientX - pad.left && f.y * pad.height == clientY - pad.top
  {
    Vec2((clientX - pad.left) / pad.width, (clientY - pad.top) / pad.height)
  }

  /** The gravity for a pad fraction: the pad's centre is level, its edges full tilt. */
  function FractionToGravity(f: Vec2): (g: Vec2)
    ensures f == Vec2(0.5, 0.5) ==> g == Zero
  {
    Vec2((f.x - 0.5) * 2.0, (f.y - 0.5) * 2.0)
  }

  /** Where the indicator dot is drawn, in percent of the pad's width and height. */
  function Indicator(g: Vec2): (pct: Vec2)
    ensures g == Zero ==> pct == Vec2(50.0, 50.0)
  {
    Vec2((g.x + 1.0) / 2.0 * 100.0, (g.y + 1.0) / 2.0 * 100.0)
  }

  /** A pointer event on the pad: the gravity it sets, or `None` when the pad is not
      mounted. */
  function PointerGravity(pad: Option<PadRect>, clientX: real, clientY: real): (r: Option<Vec2>)
    requires pad.Some? ==> pad.value.width > 0.0 && pad.value.height > 0.0
    ensures r.None? <==> pad.None?
    ensures r.Some? ==>
      (InRange(r.value) <==>
        (pad.value.left <= clientX <= pad.value.left + pad.value.width
         && pad.value.top <= clientY <= pad.value.top + pad.value.height))
    ensures r.Some? ==> r.value == FractionToGravity(PadFraction(pad.value, clientX, clientY))
  {
    match pad
    case None => None
    case Some(rect) =>
      var f := PadFraction(rect, clientX, clientY);
      FractionInRange(f);
      FractionInside(rect.left, rect.width, clientX, f.x);
      FractionInside(rect.top, rect.height, clientY, f.y);
      Some(FractionToGravity(f))
  }

  /** A fraction `f` of a span of positive `size` from `start` lies in [0, 1] exactly when
      the point lies on the span. */
  lemma FractionInside(start: real, size: real, point: real, f: real)
    requires size > 0.0 && f * size == point - start
    ensures 0.0 <= f <= 1.0 <==> start <= point <= start + size
  {
    if f < 0.0 {
      assert f * size < 0.0;
    }
    if f > 1.0 {
      assert (f - 1.0) * size > 0.0;
    }
    if point < start {
      if f >= 0.0 { MulNonNegative(f, size); assert false; }
    }
    if point > start + size {
      if f <= 1.0 { MulNonNegative(1.0 - f, size); assert false; }
    }
  }

  /** Fractions in [0, 1] are exactly the gravities in [-1, 1]. */
  lemma FractionInRange(f: Vec2)
    ensures InRange(FractionToGravity(f)) <==> 0.0 <= f.x <= 1.0 && 0.0 <= f.y <= 1.0
  {
  }

  /** The indicator of a pointer-set gravity sits under the pointer: it is the pad fraction
      in percent. */
  lemma IndicatorFollowsPointer(f: Vec2)
    ensures Indicator(FractionToGravity(f)) == Vec2(f.x * 100.0, f.y * 100.0)
  {
  }

  /** Conversely, dropping the pointer where the indicator is reproduces the gravity. */
  lemma PointerAtIndicator(g: Vec2)
    ensures FractionToGravity(Vec2(Indicator(g).x / 100.0, Indicator(g).y / 100.0)) == g
  {
  }

  /** The pad's orientation: its top-left corner is full tilt up and to the left, its
      bottom-right corner full tilt down and to the right. */
  lemma PadCorners()
    ensures FractionToGravity(Vec2(0.0, 0.0)) == Vec2(-1.0, -1.0)
    ensures FractionToGravity(Vec2(1.0, 1.0)) == Vec2(1.0, 1.0)
  {
  }

  /** The indicator for full tilt up-left is drawn at the pad's top-left corner, and for
      full tilt down-right at its bottom-right corner. */
  lemma IndicatorCorners()
    ensures Indicator(Vec2(-1.0, -1.0)) == Vec2(0.0, 0.0)
    ensures Indicator(Vec2(1.0, 1.0)) == Vec2(100.0, 100.0)
  {
  }

  /** Gravity in [-1, 1] is exactly an indicator inside the pad, [0, 100] percent. */
  lemma IndicatorRange(g: Vec2)
    ensures InRange(g) <==> 0.0 <= Indicator(g).x <= 100.0 && 0.0 <= Indicator(g).y <= 100.0
  {
  }

  /** Pointer events on the pad. */
  datatype PadEvent = PointerDown(x: real, y: real) | PointerMove(x: real, y: real) | PointerUp | PointerLeave

  /** The pad's drag handling: pressing starts a drag and sets gravity, moving sets it only
      during a drag, releasing or leaving the pad ends the drag. Returns whether a drag is
      in progress afterwards and the gravity emitted, if any. */
  function OnPadEvent(dragging: bool, pad: Option<PadRect>, e: PadEvent): (r: (bool, Option<Vec2>))
    requires pad.Some? ==> pad.value.width > 0.0 && pad.value.height > 0.0
    ensures e.PointerDown? ==> r.0
    ensures e.PointerUp? || e.PointerLeave? ==> r == (false, None)
    ensures e.PointerMove? ==> r.0 == dragging && (!dragging ==> r.1.None?)
    ensures r.1.Some? ==> pad.Some? && (e.PointerDown? || e.PointerMove?)
    ensures e.PointerDown? ==> r.1 == PointerGravity(pad, e.x, e.y)
    ensures e.PointerMove? && dragging ==> r.1 == PointerGravity(pad, e.x, e.y)
  {
    match e
    case PointerDown(x, y) => (true, PointerGravity(pad, x, y))
    case PointerMove(x, y) => (dragging, if dragging then PointerGravity(pad, x, y) else None)
    case _ => (false, None)
  }

  /** A drag session: after a press, every move emits the gravity under the pointer;
      once the pointer is released or leaves the pad, moves emit nothing. */
  lemma {:induction false} DragSession(dragging: bool, pad: Option<PadRect>, down: PadEvent, end: PadEvent, x: real, y: real)
    requires pad.Some? ==> pad.value.width > 0.0 && pad.value.height > 0.0
    requires down.PointerDown? && (end.PointerUp? || end.PointerLeave?)
    ensures var pressed := OnPadEvent(dragging, pad, down).0;
      OnPadEvent(pressed, pad, PointerMove(x, y)) == (true, PointerGravity(pad, x, y))
    ensures var released := OnPadEvent(dragging, pad, end).0;
      OnPadEvent(released, pad, PointerMove(x, y)) == (false, None)
  {
  }
}

=== FILE: device_tilt.dfy ===
/** The sensor tilt source: detecting the orientation API, the permission flow a
    platform may demand before it delivers readings, and the mapping from an
    orientation reading to a gravity direction. */
module DeviceTilt {
  import opened Wrappers
  import opened Vectors

  /** What the hook exposes, without its request callback. */
  datatype TiltState = TiltState(
    gravity: Vec2,
    isAvailable: bool,
    needsPermission: bool,
    isPermissionGranted: bool,
    isPermissionDenied: bool,
    isRequesting: bool)

  /** What the environment offers: no window at all (server rendering), or a window with
      or without the orientation API, whose `requestPermission` may or may not be a
      function. */
  datatype Platform =
    | NoWindow
    | Browser(hasOrientation: bool, hasRequestPermission: bool)

  /** How a permission request ended: the platform answered with a string, or the call
      threw. */
  datatype Outcome = Answered(answer: string) | Failed

  /** Before anything is known gravity points straight down the screen and no flag is
      set. */
  const Initial: TiltState := TiltState(Vec2(0.0, 1.0), false, false, false, false, false)

  /** Whether a permission request reaches the platform: the orientation API is present
      and its `requestPermission` is a function. Without the API the source's type test
      throws before any state changes, so such a platform behaves as one without a
      request function. */
  predicate CanRequest(p: Platform) {
    p.Browser? && p.hasOrientation && p.hasRequestPermission
  }

  /** The mount-time check: availability follows the API's presence; an API with a
      `requestPermission` function needs permission, one without is granted at once. */
  function DetectAvailability(s: TiltState, p: Platform): (r: TiltState)
    ensures r.gravity == s.gravity && r.isPermissionDenied == s.isPermissionDenied
    ensures r.isRequesting == s.isRequesting
    ensures p.NoWindow? ==> r == s
    ensures p.Browser? ==> (r.isAvailable <==> p.hasOrientation)
    ensures p.Browser? && p.hasOrientation && p.hasRequestPermission ==>
      r.needsPermission && r.isPermissionGranted == s.isPermissionGranted
    ensures p.Browser? && p.hasOrientation && !p.hasRequestPermission ==>
      r.isPermissionGranted && r.needsPermission == s.needsPermission
    ensures p.Browser? && !p.hasOrientation ==>
      r.needsPermission == s.needsPermission && r.isPermissionGranted == s.isPermissionGranted
  {
    match p
    case NoWindow => s
    case Browser(hasOrientation, hasRequestPermission) =>
      var r := s.(isAvailable := hasOrientation);
      if hasOrientation && hasRequestPermission then r.(needsPermission := true)
      else if hasOrientation then r.(isPermissionGranted := true)
      else r
  }

  /** The start of `requestPermission`: nothing happens unless the platform has a
      `requestPermission` function; otherwise the request is marked as running. */
  function BeginRequest(s: TiltState, p: Platform): (r: TiltState)
    ensures !CanRequest(p) ==> r == s
    ensures CanRequest(p) ==> r.isRequesting && r == s.(isRequesting := true)
  {
    if CanRequest(p) then s.(isRequesting := true) else s
  }

  /** The end of `requestPermission`: a "granted" answer grants and clears any denial;
      any other answer, or a failure, records a denial and leaves a grant as it was.
      Either way the request is no longer running. */
  function CompleteRequest(s: TiltState, o: Outcome): (r: TiltState)
    ensures !r.isRequesting
    ensures r.gravity == s.gravity && r.isAvailable == s.isAvailable && r.needsPermission == s.needsPermission
    ensures o == Answered("granted") ==> r.isPermissionGranted && !r.isPermissionDenied
    ensures o != Answered("granted") ==> r.isPermissionDenied && r.isPermissionGranted == s.isPermissionGranted
  {
    match o
    case Answered(answer) =>
      if answer == "granted" then s.(isPermissionGranted := true, isPermissionDenied := false, isRequesting := false)
      else s.(isPermissionDenied := true, isRequesting := false)
    case Failed => s.(isPermissionDenied := true, isRequesting := false)
  }

  /** A whole request on a platform that can be asked: begin, then complete. */
  function RequestPermission(s: TiltState, p: Platform, o: Outcome): (r: TiltState)
    ensures CanRequest(p) ==> !r.isRequesting
    ensures !CanRequest(p) ==> r == s
  {
    if CanRequest(p) then CompleteRequest(BeginRequest(s, p), o) else s
  }

  /** Division of a reading by its full-scale angle, clamped to [-1, 1]. */
  function Normalize(angle: real, fullScale: real): (g: real)
    requires fullScale > 0.0
    ensures -1.0 <= g <= 1.0
  {
    Clamp(-1.0, 1.0, angle / fullScale)
  }

  /** A reading (front-to-back `beta`, left-to-right `gamma`, in degrees, either possibly
      missing and then read as 0) as a gravity direction: 45 degrees of roll or 90 of
      pitch is full tilt. */
  function OrientationGravity(beta: Option<real>, gamma: Option<real>): (g: Vec2)
    ensures -1.0 <= g.x <= 1.0 && -1.0 <= g.y <= 1.0
  {
    var b := if beta.Some? then beta.value else 0.0;
    var c := if gamma.Some? then gamma.value else 0.0;
    Vec2(Normalize(c, 45.0), Normalize(b, 90.0))
  }

  /** Whether orientation readings are being listened to. */
  predicate Listening(s: TiltState) {
    s.isAvailable && s.isPermissionGranted
  }

  /** An orientation event: it moves gravity only while the hook is listening. */
  function OnOrientation(s: TiltState, beta: Option<real>, gamma: Option<real>): (r: TiltState)
    ensures Listening(s) ==> r == s.(gravity := OrientationGravity(beta, gamma))
    ensures !Listening(s) ==> r == s
  {
    if Listening(s) then s.(gravity := OrientationGravity(beta, gamma)) else s
  }

  /** Clamping agrees with the plain quotient inside the range and saturates outside it. */
  lemma NormalizeExact(angle: real, fullScale: real)
    requires fullScale > 0.0
    ensures -fullScale <= angle <= fullScale ==> Normalize(angle, fullScale) * fullScale == angle
    ensures angle >= fullScale ==> Normalize(angle, fullScale) == 1.0
    ensures angle <= -fullScale ==> Normalize(angle, fullScale) == -1.0
  {
    var q := angle / fullScale;
    assert q * fullScale == angle;
    if angle >= fullScale {
      if q < 1.0 {
        assert false;
      }
    }
    if angle <= -fullScale {
      if q > -1.0 {
        assert false;
      }
    }
    if -fullScale <= angle <= fullScale {
      if q > 1.0 {
        assert false;
      }
      if q < -1.0 {
        assert false;
      }
    }
  }

  /** Within +-45 degrees of roll and +-90 of pitch the reading is recovered exactly from
      the gravity; a missing reading is level. */
  lemma OrientationRoundTrip(beta: real, gamma: real)
    requires -90.0 <= beta <= 90.0 && -45.0 <= gamma <= 45.0
    ensures var g := OrientationGravity(Some(beta), Some(gamma));
      g.x * 45.0 == gamma && g.y * 90.0 == beta
    ensures OrientationGravity(None, None) == Vec2(0.0, 0.0)
  {
    NormalizeExact(gamma, 45.0);
    NormalizeExact(beta, 90.0);
  }

  /** Readings past full scale saturate: 45 degrees of roll or more is full tilt
      sideways, 90 degrees of pitch or more full tilt forwards or back. */
  lemma OrientationSaturates(beta: real, gamma: real)
    ensures var g := OrientationGravity(Some(beta), Some(gamma));
      && (gamma >= 45.0 ==> g.x == 1.0) && (gamma <= -45.0 ==> g.x == -1.0)
      && (beta >= 90.0 ==> g.y == 1.0) && (beta <= -90.0 ==> g.y == -1.0)
  {
    NormalizeExact(gamma, 45.0);
    NormalizeExact(beta, 90.0);
  }

  /** On a platform with the API the mount check leaves the hook listening exactly when
      no permission is needed; on one that asks, a "granted" answer then starts it. */
  lemma {:induction false} PermissionFlow(p: Platform, o: Outcome)
    requires p.Browser? && p.hasOrientation
    ensures var s := DetectAvailability(Initial, p);
      (Listening(s) <==> !p.hasRequestPermission) && (s.needsPermission <==> p.hasRequestPermission)
    ensures var s := RequestPermission(DetectAvailability(Initial, p), p, o);
      Listening(s) <==> (!p.hasRequestPermission || o == Answered("granted"))
  {
    var s := DetectAvailability(Initial, p);
    if p.hasRequestPermission {
      assert !s.isPermissionGranted;
    }
  }

  /** Without the API the hook never listens, whatever is asked of it. */
  lemma {:induction false} UnavailableNeverListens(p: Platform, o: Outcome, beta: Option<real>, gamma: Option<real>)
    requires !(p.Browser? && p.hasOrientation)
    ensures var s := RequestPermission(DetectAvailability(Initial, p), p, o);
      !Listening(s) && OnOrientation(s, beta, gamma).gravity == Initial.gravity
  {
  }

  /** Once granted, a later request cannot take the grant away: a refusal then leaves
      both the grant and the denial set. */
  lemma {:induction false} GrantIsSticky(s: TiltState, p: Platform, o: Outcome)
    requires s.isPermissionGranted
    ensures RequestPermission(s, p, o).isPermissionGranted
    ensures CanRequest(p) && o != Answered("granted") ==> RequestPermission(s, p, o).isPermissionDenied
  {
  }
}

=== FILE: engine.dfy ===
/** The physics engine: a world of bodies and its fixed parameters, advanced one step
    at a time through the four phases (velocity, position, walls, pairs). */
module Engine {
  import opened Vectors
  import opened Bodies
  import opened Integration
  import opened Walls
  import opened Collision
  import opened PairSweep
  import opened Layout

  datatype PhysicsEngine = PhysicsEngine(bodies: seq<Body>, params: WorldParams)

  const GravityScale: real := 500.0
  const Damping: real := 0.98
  const AngularDamping: real := 0.95

  /** Longest time step the frame loop ever passes, in seconds (about 30 frames a second). */
  const MaxFrameDelta: real := 0.033

  /** A new engine over `bodies` in a `width` x `height` world. The fixed constants make
      every step dissipative: both damping factors are fractions. */
  function NewEngine(bodies: seq<Body>, width: real, height: real): (e: PhysicsEngine)
    ensures e.bodies == bodies
    ensures e.params == WorldParams(width, height, 500.0, 0.98, 0.95)
  {
    PhysicsEngine(bodies, WorldParams(width, height, GravityScale, Damping, AngularDamping))
  }

  /** Phases 1 and 2 for every body, in order. */
  function IntegrateAll(bs: seq<Body>, dt: real, gravity: Vec2, p: WorldParams, sqrt: real -> real): (r: seq<Body>)
    ensures SameBodies(bs, r)
    ensures ValidBodies(bs) ==> ValidBodies(r)
    ensures forall k :: 0 <= k < |bs| ==> r[k] == IntegrateBody(bs[k], dt, gravity, p, sqrt)
  {
    seq(|bs|, k requires 0 <= k < |bs| => IntegrateBody(bs[k], dt, gravity, p, sqrt))
  }

  /** Phase 3 for every body, in order. */
  function BoundAll(bs: seq<Body>, width: real, height: real): (r: seq<Body>)
    requires ValidBodies(bs)
    ensures SameBodies(bs, r) && ValidBodies(r)
    ensures forall k :: 0 <= k < |bs| ==> r[k] == ResolveBounds(bs[k], width, height)
  {
    seq(|bs|, k requires 0 <= k < |bs| => ResolveBounds(bs[k], width, height))
  }

  /** One simulation step of `dt` seconds under the tilt direction `gravity`: every body is
      integrated, then pushed back inside the walls, then every pair `i < j` is resolved in
      lexicographic order. */
  function Step(e: PhysicsEngine, dt: real, gravity: Vec2, sqrt: real -> real): (r: PhysicsEngine)
    requires ValidBodies(e.bodies)
    ensures r.params == e.params
    ensures SameBodies(e.bodies, r.bodies) && ValidBodies(r.bodies)
  {
    var moved := IntegrateAll(e.bodies, dt, gravity, e.params, sqrt);
    var walled := BoundAll(moved, e.params.width, e.params.height);
    e.(bodies := ApplyPairs(walled, Pairs(|walled|), sqrt))
  }

  /** The step as the source runs it: two passes over the bodies updating each in place,
      then the nested pair loop. */
  method RunStep(e: PhysicsEngine, dt: real, gravity: Vec2, sqrt: real -> real) returns (r: PhysicsEngine)
    requires ValidBodies(e.bodies)
    ensures r == Step(e, dt, gravity, sqrt)
  {
    var bs := e.bodies;
    var n := |bs|;
    var k := 0;
    while k < n
      invariant 0 <= k <= n && |bs| == n
      invariant forall m :: 0 <= m < k ==> bs[m] == IntegrateBody(e.bodies[m], dt, gravity, e.params, sqrt)
      invariant forall m :: k <= m < n ==> bs[m] == e.bodies[m]
    {
      bs := bs[k := IntegrateBody(bs[k], dt, gravity, e.params, sqrt)];
      k := k + 1;
    }
    ghost var moved := IntegrateAll(e.bodies, dt, gravity, e.params, sqrt);
    assert bs == moved;
    k := 0;
    while k < n
      invariant 0 <= k <= n && |bs| == n
      invariant forall m :: 0 <= m < k ==> bs[m] == ResolveBounds(moved[m], e.params.width, e.params.height)
      invariant forall m :: k <= m < n ==> bs[m] == moved[m]
    {
      bs := bs[k := ResolveBounds(bs[k], e.params.width, e.params.height)];
      k := k + 1;
    }
    assert bs == BoundAll(moved, e.params.width, e.params.height);
    bs := ResolveAllPairs(bs, sqrt);
    r := e.(bodies := bs);
  }

  /** A lone body never meets another, so its whole step ends inside the walls whenever
      the world is at least as wide and tall as the body. */
  lemma {:induction false} StepSingleBodyInBounds(e: PhysicsEngine, dt: real, gravity: Vec2, sqrt: real -> real)
    requires |e.bodies| == 1 && ValidBodies(e.bodies)
    requires 2.0 * e.bodies[0].radius <= e.params.width && 2.0 * e.bodies[0].radius <= e.params.height
    ensures InBounds(Step(e, dt, gravity, sqrt).bodies[0], e.params.width, e.params.height)
  {
    var moved := IntegrateAll(e.bodies, dt, gravity, e.params, sqrt);
    var walled := BoundAll(moved, e.params.width, e.params.height);
    assert Pairs(1) == [];
    assert ApplyPairs(walled, Pairs(1), sqrt) == walled;
    ResolveBoundsContains(moved[0], e.params.width, e.params.height);
  }

  /** When no two bodies overlap after the wall phase, the pair phase changes nothing. */
  lemma {:induction false} StepWithoutContacts(e: PhysicsEngine, dt: real, gravity: Vec2, sqrt: real -> real)
    requires ValidBodies(e.bodies)
    requires var walled := BoundAll(IntegrateAll(e.bodies, dt, gravity, e.params, sqrt), e.params.width, e.params.height);
      forall k, l :: 0 <= k < l < |walled| ==> !Overlapping(walled[k], walled[l], sqrt)
    ensures forall k :: 0 <= k < |e.bodies| ==>
      Step(e, dt, gravity, sqrt).bodies[k]
        == ResolveBounds(IntegrateBody(e.bodies[k], dt, gravity, e.params, sqrt), e.params.width, e.params.height)
  {
    var walled := BoundAll(IntegrateAll(e.bodies, dt, gravity, e.params, sqrt), e.params.width, e.params.height);
    ApplyPairsSeparated(walled, Pairs(|walled|), sqrt);
  }

  /** When no two bodies overlap after the wall phase and every body fits the world,
      every body ends the step inside the walls. */
  lemma {:induction false} StepWithoutContactsInBounds(e: PhysicsEngine, dt: real, gravity: Vec2, sqrt: real -> real)
    requires ValidBodies(e.bodies)
    requires forall k :: 0 <= k < |e.bodies| ==>
      2.0 * e.bodies[k].radius <= e.params.width && 2.0 * e.bodies[k].radius <= e.params.height
    requires var walled := BoundAll(IntegrateAll(e.bodies, dt, gravity, e.params, sqrt), e.params.width, e.params.height);
      forall k, l :: 0 <= k < l < |walled| ==> !Overlapping(walled[k], walled[l], sqrt)
    ensures forall k :: 0 <= k < |e.bodies| ==>
      InBounds(Step(e, dt, gravity, sqrt).bodies[k], e.params.width, e.params.height)
  {
    StepWithoutContacts(e, dt, gravity, sqrt);
    forall k | 0 <= k < |e.bodies|
      ensures InBounds(Step(e, dt, gravity, sqrt).bodies[k], e.params.width, e.params.height)
    {
      ResolveBoundsContains(IntegrateBody(e.bodies[k], dt, gravity, e.params, sqrt), e.params.width, e.params.height);
    }
  }

  /** The frame loop's time step: elapsed milliseconds in seconds, capped at
      `MaxFrameDelta`. */
  function FrameDelta(elapsedMs: real): (dt: real)
    ensures dt <= MaxFrameDelta
    ensures elapsedMs >= 0.0 ==> 0.0 <= dt
    ensures dt == elapsedMs / 1000.0 || dt == MaxFrameDelta
    ensures elapsedMs / 1000.0 <= MaxFrameDelta ==> dt == elapsedMs / 1000.0
  {
    Min(elapsedMs / 1000.0, MaxFrameDelta)
  }

  /** The engine the canvas builds: the initial layout of `assets` in a `width` x `height`
      world. */
  function InitialEngine(width: real, height: real, assets: seq<IconAsset>): (e: PhysicsEngine)
    ensures e.params == NewEngine([], width, height).params
    ensures |e.bodies| == |assets|
    ensures forall i :: 0 <= i < |assets| ==> e.bodies[i].id == assets[i].id
    ensures width > 0.0 && height > 0.0 ==> ValidBodies(e.bodies)
  {
    NewEngine(CreateInitialLayout(width, height, assets), width, height)
  }

  /** Reset replaces every body with a fresh layout for the current viewport size but
      keeps the engine's parameters, including the world size it was built with. */
  function Reset(e: PhysicsEngine, width: real, height: real, assets: seq<IconAsset>): (r: PhysicsEngine)
    ensures r.params == e.params
    ensures |r.bodies| == |assets|
    ensures forall i :: 0 <= i < |assets| ==>
      r.bodies[i].id == assets[i].id && r.bodies[i].velocity == Zero && r.bodies[i].angularVelocity == 0.0
    ensures r.bodies == InitialEngine(width, height, assets).bodies
  {
    e.(bodies := CreateInitialLayout(width, height, assets))
  }
}

=== FILE: integration.dfy ===
/** Phases 1 and 2 of a physics step for one body: gravity, damping and the speed
    clamp, then explicit Euler integration of position and rotation. */
module Integration {
  import opened Vectors
  import opened Bodies

  /** Speed above which a body's velocity is rescaled, in units per second. */
  const MaxVelocity: real := 1000.0

  /** Gravity direction scaled into an acceleration, then per-step damping of linear
      and angular velocity. */
  function ApplyForces(b: Body, dt: real, gravity: Vec2, p: WorldParams): (r: Body)
    ensures SameIdentity(b, r)
    ensures r.position == b.position && r.rotation == b.rotation
    ensures r.angularVelocity == b.angularVelocity * p.angularDamping
    ensures gravity == Zero ==> r.velocity.x == b.velocity.x * p.damping && r.velocity.y == b.velocity.y * p.damping
  {
    var vx := (b.velocity.x + gravity.x * p.gravityScale * dt) * p.damping;
    var vy := (b.velocity.y + gravity.y * p.gravityScale * dt) * p.damping;
    b.(velocity := Vec2(vx, vy), angularVelocity := b.angularVelocity * p.angularDamping)
  }

  /** Rescales a velocity whose speed exceeds `MaxVelocity` down to that speed. */
  function ClampSpeed(v: Vec2, sqrt: real -> real): (r: Vec2)
    ensures Length(v, sqrt) <= MaxVelocity ==> r == v
  {
    var speed := Length(v, sqrt);
    if speed > MaxVelocity then
      Vec2(v.x / speed * MaxVelocity, v.y / speed * MaxVelocity)
    else
      v
  }

  /** Phase 1: forces then the speed clamp. */
  function IntegrateVelocity(b: Body, dt: real, gravity: Vec2, p: WorldParams, sqrt: real -> real): (r: Body)
    ensures SameIdentity(b, r)
    ensures r.position == b.position && r.rotation == b.rotation
    ensures r.angularVelocity == b.angularVelocity * p.angularDamping
    ensures r.velocity == ClampSpeed(ApplyForces(b, dt, gravity, p).velocity, sqrt)
    ensures Length(ApplyForces(b, dt, gravity, p).velocity, sqrt) <= MaxVelocity ==>
      r.velocity == ApplyForces(b, dt, gravity, p).velocity
  {
    var f := ApplyForces(b, dt, gravity, p);
    f.(velocity := ClampSpeed(f.velocity, sqrt))
  }

  /** Phase 2: position and rotation advance by the current velocities over `dt`. */
  function IntegratePosition(b: Body, dt: real): (r: Body)
    ensures SameIdentity(b, r)
    ensures r.velocity == b.velocity && r.angularVelocity == b.angularVelocity
    ensures dt == 0.0 ==> r == b
  {
    b.(position := Vec2(b.position.x + b.velocity.x * dt, b.position.y + b.velocity.y * dt),
       rotation := b.rotation + b.angularVelocity * dt)
  }

  /** The per-body work of the first loop of a step: the body takes its new, already
      capped velocity and damped spin, and moves and turns by them over `dt`. */
  function IntegrateBody(b: Body, dt: real, gravity: Vec2, p: WorldParams, sqrt: real -> real): (r: Body)
    ensures SameIdentity(b, r)
    ensures r.velocity == IntegrateVelocity(b, dt, gravity, p, sqrt).velocity
    ensures r.angularVelocity == b.angularVelocity * p.angularDamping
    ensures Sub(r.position, b.position) == Vec2(r.velocity.x * dt, r.velocity.y * dt)
    ensures r.rotation - b.rotation == r.angularVelocity * dt
  {
    IntegratePosition(IntegrateVelocity(b, dt, gravity, p, sqrt), dt)
  }

  /** After the clamp the speed is at most `MaxVelocity`; a velocity that was faster
      ends at exactly `MaxVelocity`, pointing the same way as before. */
  lemma {:induction false} ClampSpeedBound(v: Vec2, sqrt: real -> real)
    requires IsSqrt(sqrt)
    ensures Length(ClampSpeed(v, sqrt), sqrt) <= MaxVelocity
    ensures Length(v, sqrt) > MaxVelocity ==>
      Length(ClampSpeed(v, sqrt), sqrt) == MaxVelocity && SameDirection(ClampSpeed(v, sqrt), v)
  {
    var s := sqrt(NormSq(v));
    NormSqNonNegative(v);
    assert 0.0 <= s && s * s == NormSq(v);
    if s > MaxVelocity {
      var k := MaxVelocity / s;
      var r := ClampSpeed(v, sqrt);
      assert r == Vec2(v.x * k, v.y * k);
      assert NormSq(r) == k * k * NormSq(v);
      assert k * s == MaxVelocity;
      assert NormSq(r) == MaxVelocity * MaxVelocity by {
        calc {
          NormSq(r);
          k * k * (s * s);
          (k * s) * (k * s);
        }
      }
      SqrtOfSquare(sqrt, MaxVelocity);
      assert NormSq(v) > 0.0;
      assert Dot(r, v) == k * NormSq(v);
    } else {
      assert ClampSpeed(v, sqrt) == v;
    }
  }

  /** Clamping twice is clamping once. */
  lemma {:induction false} ClampSpeedIdempotent(v: Vec2, sqrt: real -> real)
    requires IsSqrt(sqrt)
    ensures ClampSpeed(ClampSpeed(v, sqrt), sqrt) == ClampSpeed(v, sqrt)
  {
    ClampSpeedBound(v, sqrt);
  }

  /** Without gravity, damping factors in [0,1] never make a body faster or spin faster. */
  lemma {:induction false} DampingDissipates(b: Body, dt: real, p: WorldParams)
    requires 0.0 <= p.damping <= 1.0 && 0.0 <= p.angularDamping <= 1.0
    ensures NormSq(ApplyForces(b, dt, Zero, p).velocity) <= NormSq(b.velocity)
    ensures Abs(ApplyForces(b, dt, Zero, p).angularVelocity) <= Abs(b.angularVelocity)
  {
    var r := ApplyForces(b, dt, Zero, p);
    var d := p.damping;
    var v := b.velocity;
    var k := d * d;
    MulNonNegative(d, 1.0 - d);
    assert d * (1.0 - d) == d - k;
    MulNonNegative(d, d);
    assert r.velocity.x * r.velocity.x == k * (v.x * v.x);
    assert r.velocity.y * r.velocity.y == k * (v.y * v.y);
    assert NormSq(r.velocity) == k * NormSq(v);
    NormSqNonNegative(v);
    MulNonNegative(1.0 - k, NormSq(v));
    var w := b.angularVelocity;
    if w >= 0.0 {
      MulNonNegative(w, p.angularDamping);
      MulNonNegative(w, 1.0 - p.angularDamping);
    } else {
      MulNonNegative(-w, p.angularDamping);
      MulNonNegative(-w, 1.0 - p.angularDamping);
    }
  }

  /** After phase 1 every body moves no faster than `MaxVelocity`. */
  lemma {:induction false} IntegrateVelocityBound(b: Body, dt: real, gravity: Vec2, p: WorldParams, sqrt: real -> real)
    requires IsSqrt(sqrt)
    ensures Length(IntegrateVelocity(b, dt, gravity, p, sqrt).velocity, sqrt) <= MaxVelocity
  {
    ClampSpeedBound(ApplyForces(b, dt, gravity, p).velocity, sqrt);
  }

  /** Over one step a body travels at most `MaxVelocity * dt`: its displacement is its
      new velocity times `dt`, and that velocity has already been capped. */
  lemma {:induction false} IntegrateBodyTravel(b: Body, dt: real, gravity: Vec2, p: WorldParams, sqrt: real -> real)
    requires IsSqrt(sqrt)
    ensures var r := IntegrateBody(b, dt, gravity, p, sqrt);
      NormSq(Sub(r.position, b.position)) <= MaxVelocity * MaxVelocity * (dt * dt)
  {
    var r := IntegrateBody(b, dt, gravity, p, sqrt);
    IntegrateVelocityBound(b, dt, gravity, p, sqrt);
    LengthBoundSquared(r.velocity, sqrt, MaxVelocity);
    ScaledNormSqBound(r.velocity, dt, MaxVelocity * MaxVelocity);
  }

  /** Position integration is undone by integrating backwards over the same interval. */
  lemma {:induction false} IntegratePositionReversible(b: Body, dt: real)
    ensures IntegratePosition(IntegratePosition(b, dt), -dt) == b
  {
    var r := IntegratePosition(IntegratePosition(b, dt), -dt);
    assert r.position == b.position;
    assert r.rotation == b.rotation;
  }

  /** Gravity adds `damping * gravityScale * dt` times the tilt direction to the damped
      velocity: the difference from the same body without gravity is exactly that. */
  lemma {:induction false} GravityAcceleration(b: Body, dt: real, gravity: Vec2, p: WorldParams)
    ensures var k := p.damping * p.gravityScale * dt;
      Sub(ApplyForces(b, dt, gravity, p).velocity, ApplyForces(b, dt, Zero, p).velocity)
        == Vec2(k * gravity.x, k * gravity.y)
  {
    var k := p.damping * p.gravityScale * dt;
    var r := ApplyForces(b, dt, gravity, p);
    var z := ApplyForces(b, dt, Zero, p);
    assert r.velocity.x - z.velocity.x == k * gravity.x;
    assert r.velocity.y - z.velocity.y == k * gravity.y;
  }

  /** The Euler step moves a body by its velocity times `dt` and turns it by its spin
      times `dt`. */
  lemma {:induction false} IntegratePositionDisplacement(b: Body, dt: real)
    ensures var r := IntegratePosition(b, dt);
      && Sub(r.position, b.position) == Vec2(b.velocity.x * dt, b.velocity.y * dt)
      && r.rotation - b.rotation == b.angularVelocity * dt
  {
  }

  /** The cap changes a velocity exactly when its squared speed exceeds
      `MaxVelocity` squared. */
  lemma {:induction false} ClampSpeedExactlyWhenFast(v: Vec2, sqrt: real -> real)
    requires IsSqrt(sqrt)
    ensures ClampSpeed(v, sqrt) == v <==> NormSq(v) <= MaxVelocity * MaxVelocity
  {
    NormSqNonNegative(v);
    var s := Length(v, sqrt);
    assert 0.0 <= s && s * s == NormSq(v);
    if NormSq(v) <= MaxVelocity * MaxVelocity {
      SqrtMonotone(sqrt, NormSq(v), MaxVelocity * MaxVelocity);
      SqrtOfSquare(sqrt, MaxVelocity);
    } else {
      if s <= MaxVelocity {
        MulNonNegative(MaxVelocity - s, MaxVelocity + s);
        assert false;
      }
      ClampSpeedBound(v, sqrt);
    }
  }
}

=== FILE: layout.dfy ===
/** The starting arrangement of the icons: a three-column grid, one body per asset,
    all at rest and all the same size. */
module Layout {
  import opened Vectors
  import opened Bodies

  /** An icon the simulation shows; only `id` reaches the bodies (`caption` is the
      source's `label`, a reserved word here). */
  datatype IconAsset = IconAsset(id: string, caption: string, path: string)

  const Columns: nat := 3

  /** `Math.ceil`. */
  function Ceil(x: real): (c: int) {
    -((-x).Floor)
  }

  /** Number of grid rows, `Math.ceil(n / 3)`: the integer ceiling of `n / 3`. */
  function RowCount(n: nat): (rows: nat)
    ensures rows == (n + 2) / 3
  {
    var q, r := (n + 2) / 3, (n + 2) % 3;
    assert n as real / 3.0 == q as real - (2 - r) as real / 3.0;
    assert (q - 1) as real < n as real / 3.0 <= q as real;
    Ceil(n as real / Columns as real)
  }

  /** Grid column of the icon at `index`, `index % 3`. */
  function Column(index: nat): (col: nat)
    ensures col < Columns
  {
    index % Columns
  }

  /** Grid row of the icon at `index`, `Math.floor(index / 3)`: integer division. */
  function GridRow(index: nat): (row: nat)
    ensures row == index / 3
  {
    var q, r := index / 3, index % 3;
    assert index as real / 3.0 == q as real + r as real / 3.0;
    (index as real / Columns as real).Floor
  }

  /** Shared icon radius: half of 15% of the smaller viewport side. */
  function IconRadius(width: real, height: real): (r: real) {
    Min(width, height) * 0.15 / 2.0
  }

  /** A fresh, motionless body for `asset` at `(x, y)`. */
  function RestingBody(asset: IconAsset, x: real, y: real, radius: real): (b: Body)
    ensures b.id == asset.id && b.position == Vec2(x, y) && b.radius == radius
    ensures b.velocity == Zero && b.rotation == 0.0 && b.angularVelocity == 0.0
    ensures b.mass == 1.0 && b.restitution == 0.4 && b.friction == 0.3
  {
    Body(asset.id, Vec2(x, y), Vec2(0.0, 0.0), 0.0, 0.0, radius, 1.0, 0.4, 0.3)
  }

  /** The body the layout makes for `assets[index]`. */
  function PlaceIcon(width: real, height: real, assets: seq<IconAsset>, index: nat): (b: Body)
    requires index < |assets|
    ensures b.id == assets[index].id && b.radius == IconRadius(width, height)
    ensures b.velocity == Zero && b.rotation == 0.0 && b.angularVelocity == 0.0
    ensures b.mass == 1.0 && b.restitution == 0.4 && b.friction == 0.3
  {
    var radius := IconRadius(width, height);
    var rows := RowCount(|assets|);
    var horizontalSpacing := width / (Columns + 1) as real;
    var verticalSpacing := height / (rows + 2) as real;
    RestingBody(assets[index],
                horizontalSpacing * (Column(index) + 1) as real,
                verticalSpacing * (GridRow(index) as real + 1.5),
                radius)
  }

  /** One body per asset, in asset order, on the grid. */
  function CreateInitialLayout(width: real, height: real, assets: seq<IconAsset>): (bodies: seq<Body>)
    ensures |bodies| == |assets|
    ensures forall i :: 0 <= i < |assets| ==> bodies[i] == PlaceIcon(width, height, assets, i)
  {
    seq(|assets|, index requires 0 <= index < |assets| => PlaceIcon(width, height, assets, index))
  }

  /** The closed form of the layout's grid: icon `i` of `n` sits on column line
      `i mod 3` of four equal horizontal gaps, and on row `i div 3` of `ceil(n / 3) + 2`
      equal vertical gaps, offset by one and a half gaps from the top. */
  function GridPoint(width: real, height: real, n: nat, i: nat): (p: Vec2) {
    Vec2(width / 4.0 * (i % 3 + 1) as real, height / ((n + 2) / 3 + 2) as real * ((i / 3) as real + 1.5))
  }

  /** The layout puts every icon on its grid point. */
  lemma LayoutPosition(width: real, height: real, assets: seq<IconAsset>, i: nat)
    requires i < |assets|
    ensures PlaceIcon(width, height, assets, i).position == GridPoint(width, height, |assets|, i)
  {
    var n := |assets|;
    var horizontalSpacing := width / (Columns + 1) as real;
    var verticalSpacing := height / (RowCount(n) + 2) as real;
    assert PlaceIcon(width, height, assets, i).position
      == Vec2(horizontalSpacing * (Column(i) + 1) as real, verticalSpacing * (GridRow(i) as real + 1.5));
    assert horizontalSpacing == width / 4.0;
    assert (Column(i) + 1) as real == (i % 3 + 1) as real;
    assert RowCount(n) == (n + 2) / 3;
    assert verticalSpacing == height / ((n + 2) / 3 + 2) as real;
    assert GridRow(i) as real == (i / 3) as real;
  }

  /** `h / d * k` lies strictly between 0 and `h` when `0 < k < d`. */
  lemma FractionInside(h: real, d: real, k: real)
    requires h > 0.0 && 0.0 < k < d
    ensures 0.0 < h / d * k < h
  {
    var q := k / d;
    assert h / d * k == h * q;
    assert q * d == k;
    if q >= 1.0 {
      MulNonNegative(q - 1.0, d);
      assert false;
    }
    MulNonNegative(h, q);
    assert h * q < h * 1.0;
  }

  lemma ScaleMonotone(c: real, a: real, b: real)
    requires c > 0.0 && a < b
    ensures c * a < c * b
  {
  }

  /** Icon `i` of `n` sits in a row below `ceil(n / 3)`. */
  lemma RowBelowCount(i: nat, n: nat)
    requires i < n
    ensures i / 3 < (n + 2) / 3
  {
  }

  /** Column lines are `w/4`, `w/2` and `3w/4`, strictly inside a positive width; rows
      lie strictly inside a positive height. */
  lemma {:induction false} GridInside(width: real, height: real, n: nat, i: nat)
    requires i < n
    ensures var x := GridPoint(width, height, n, i).x;
      x == width / 4.0 || x == width / 2.0 || x == 3.0 * width / 4.0
    ensures width > 0.0 ==> 0.0 < GridPoint(width, height, n, i).x < width
    ensures height > 0.0 ==> 0.0 < GridPoint(width, height, n, i).y < height
  {
    assert i % 3 == 0 || i % 3 == 1 || i % 3 == 2;
    if height > 0.0 {
      RowBelowCount(i, n);
      FractionInside(height, ((n + 2) / 3 + 2) as real, (i / 3) as real + 1.5);
    }
  }

  /** Different indices have different grid points when both sides are positive. */
  lemma {:induction false} GridDistinct(width: real, height: real, n: nat, i: nat, j: nat)
    requires i != j && width > 0.0 && height > 0.0
    ensures GridPoint(width, height, n, i) != GridPoint(width, height, n, j)
  {
    if i % 3 != j % 3 {
      var a, b := (i % 3 + 1) as real, (j % 3 + 1) as real;
      if a < b { ScaleMonotone(width / 4.0, a, b); } else { ScaleMonotone(width / 4.0, b, a); }
    } else {
      assert i / 3 != j / 3;
      var a, b := (i / 3) as real + 1.5, (j / 3) as real + 1.5;
      var c := height / ((n + 2) / 3 + 2) as real;
      if a < b { ScaleMonotone(c, a, b); } else { ScaleMonotone(c, b, a); }
    }
  }

  /** A centre line `k` gaps of `h / d` down, at least one and a half gaps from either
      edge, keeps a disc of radius `r <= 0.075 h` inside when there are at most 20 gaps. */
  lemma RowClearance(h: real, d: real, k: real, r: real)
    requires h > 0.0 && 2.0 < d <= 20.0 && 1.5 <= k <= d - 1.5 && r <= h * 0.075
    ensures r <= h / d * k <= h - r
  {
    var gap := h / d;
    assert gap * d == h;
    assert gap >= h * 0.05 by {
      if gap < h * 0.05 {
        ScaleMonotone(d, gap, h * 0.05);
        MulNonNegative(20.0 - d, h * 0.05);
        assert false;
      }
    }
    assert gap * 1.5 >= h * 0.075;
    MulNonNegative(gap, k - 1.5);
    assert gap * (k - 1.5) == gap * k - gap * 1.5;
    MulNonNegative(gap, d - 1.5 - k);
    assert gap * (d - 1.5 - k) == gap * d - gap * 1.5 - gap * k;
  }

  /** Icon `i` of `n <= 54` sits in one of at most 18 rows. */
  lemma RowBound(i: nat, n: nat)
    requires i < n <= 54
    ensures i / 3 < (n + 2) / 3 <= 18
  {
  }

  /** With at most 18 rows, a disc of the icon radius around any grid point lies inside
      the walls. */
  lemma {:induction false} GridClearance(width: real, height: real, n: nat, i: nat)
    requires i < n <= 54 && width > 0.0 && height > 0.0
    ensures var p, r := GridPoint(width, height, n, i), IconRadius(width, height);
      r <= p.x <= width - r && r <= p.y <= height - r
  {
    var r := IconRadius(width, height);
    assert r <= width * 0.075 && r <= height * 0.075;
    GridInside(width, height, n, i);
    RowBound(i, n);
    RowClearance(height, ((n + 2) / 3 + 2) as real, (i / 3) as real + 1.5, r);
  }

  /** Every icon starts strictly inside a viewport with positive sides. */
  lemma {:induction false} LayoutInside(width: real, height: real, assets: seq<IconAsset>, i: nat)
    requires i < |assets| && width > 0.0 && height > 0.0
    ensures var p := CreateInitialLayout(width, height, assets)[i].position;
      && (p.x == width / 4.0 || p.x == width / 2.0 || p.x == 3.0 * width / 4.0)
      && 0.0 < p.x < width && 0.0 < p.y < height
  {
    LayoutPosition(width, height, assets, i);
    GridInside(width, height, |assets|, i);
  }

  /** Distinct assets start at distinct points of a viewport with positive sides: the
      (column, row) cell of index `i` determines `i`. */
  lemma {:induction false} LayoutDistinct(width: real, height: real, assets: seq<IconAsset>, i: nat, j: nat)
    requires i < |assets| && j < |assets| && i != j
    requires width > 0.0 && height > 0.0
    ensures PlaceIcon(width, height, assets, i).position != PlaceIcon(width, height, assets, j).position
  {
    LayoutPosition(width, height, assets, i);
    LayoutPosition(width, height, assets, j);
    GridDistinct(width, height, |assets|, i, j);
  }

  /** With at most 54 icons (18 rows) every starting disc lies inside the walls. The first
      and last rows sit 1.5 vertical gaps, `1.5 * height / (rows + 2)`, from the walls;
      beyond 18 rows that can be less than the icon radius. */
  lemma {:induction false} LayoutWithinWalls(width: real, height: real, assets: seq<IconAsset>, i: nat)
    requires i < |assets| <= 54
    requires width > 0.0 && height > 0.0
    ensures InBounds(CreateInitialLayout(width, height, assets)[i], width, height)
  {
    LayoutPosition(width, height, assets, i);
    GridClearance(width, height, |assets|, i);
  }

  /** The six icons the sandbox ships with. */
  const IconAssets: seq<IconAsset> := [
    IconAsset("camera", "Camera", "/assets/generated/icon-camera.dim_256x256.png"),
    IconAsset("music", "Music", "/assets/generated/icon-music.dim_256x256.png"),
    IconAsset("chat", "Chat", "/assets/generated/icon-chat.dim_256x256.png"),
    IconAsset("map", "Map", "/assets/generated/icon-map.dim_256x256.png"),
    IconAsset("game", "Game", "/assets/generated/icon-game.dim_256x256.png"),
    IconAsset("settings", "Settings", "/assets/generated/icon-settings.dim_256x256.png")
  ]

  /** The shipped icons have distinct ids, so the layout gives every body a distinct id. */
  lemma ShippedLayoutIds(width: real, height: real)
    ensures var bodies := CreateInitialLayout(width, height, IconAssets);
      |bodies| == 6 && forall i, j :: 0 <= i < j < 6 ==> bodies[i].id != bodies[j].id
  {
    var bodies := CreateInitialLayout(width, height, IconAssets);
    forall i, j | 0 <= i < j < 6 ensures bodies[i].id != bodies[j].id {
      assert bodies[i].id == IconAssets[i].id && bodies[j].id == IconAssets[j].id;
    }
  }

  /** A 300 x 600 viewport with the shipped icons: two rows, radius 22.5, the first icon at
      (75, 225) and the fourth, first of the second row, at (75, 375). */
  lemma ShippedLayoutExample()
    ensures var bodies := CreateInitialLayout(300.0, 600.0, IconAssets);
      && bodies[0].radius == 22.5
      && bodies[0].position == Vec2(75.0, 225.0)
      && bodies[3].position == Vec2(75.0, 375.0)
  {
    LayoutPosition(300.0, 600.0, IconAssets, 0);
    LayoutPosition(300.0, 600.0, IconAssets, 3);
    assert GridPoint(300.0, 600.0, 6, 0) == Vec2(75.0, 225.0);
    assert GridPoint(300.0, 600.0, 6, 3) == Vec2(75.0, 375.0);
  }
}

=== FILE: pairs.dfy ===
/** Phase 4 over the whole collection: every unordered pair `i < j` is resolved once,
    row by row (`i` ascending, then `j` ascending), each resolution seeing the bodies
    as the previous ones left them. */
module PairSweep {
  import opened Vectors
  import opened Bodies
  import opened Collision
  import CollisionProperties

  type Pair = (nat, nat)

  /** The pairs `(i, j), (i, j + 1), ..., (i, n - 1)`. */
  function Row(i: nat, j: nat, n: nat): (r: seq<Pair>)
    ensures |r| == if j < n then n - j else 0
    ensures forall k :: 0 <= k < |r| ==> r[k] == (i, j + k)
    decreases n - j
  {
    if j >= n then [] else [(i, j)] + Row(i, j + 1, n)
  }

  /** Rows `i, i + 1, ..., n - 1` of the triangle of index pairs below `n`. */
  function PairsFrom(i: nat, n: nat): (r: seq<Pair>)
    ensures forall k :: 0 <= k < |r| ==> i <= r[k].0 < r[k].1 < n
    decreases n - i
  {
    if i >= n then [] else Row(i, i + 1, n) + PairsFrom(i + 1, n)
  }

  /** The order in which a step visits the pairs of an `n`-body collection. */
  function Pairs(n: nat): (ps: seq<Pair>) {
    PairsFrom(0, n)
  }

  /** Lexicographic order on index pairs. */
  predicate LexLess(p: Pair, q: Pair) {
    p.0 < q.0 || (p.0 == q.0 && p.1 < q.1)
  }

  predicate StrictlySorted(ps: seq<Pair>) {
    forall k, l :: 0 <= k < l < |ps| ==> LexLess(ps[k], ps[l])
  }

  predicate PairsInRange(ps: seq<Pair>, n: nat) {
    forall k :: 0 <= k < |ps| ==> ps[k].0 < ps[k].1 < n
  }

  /** Resolves the pair at indices `p.0 < p.1`, leaving every other body alone. */
  function ResolveAt(bs: seq<Body>, p: Pair, sqrt: real -> real): (r: seq<Body>)
    requires ValidBodies(bs) && p.0 < p.1 < |bs|
    ensures SameBodies(bs, r) && ValidBodies(r)
    ensures forall k :: 0 <= k < |bs| && k != p.0 && k != p.1 ==> r[k] == bs[k]
    ensures Overlapping(bs[p.0], bs[p.1], sqrt) || r == bs
    ensures (r[p.0], r[p.1]) == Collide(bs[p.0], bs[p.1], sqrt)
  {
    var c := Collide(bs[p.0], bs[p.1], sqrt);
    bs[p.0 := c.0][p.1 := c.1]
  }

  /** Resolves the pairs `ps` one after another. */
  function ApplyPairs(bs: seq<Body>, ps: seq<Pair>, sqrt: real -> real): (r: seq<Body>)
    requires ValidBodies(bs) && PairsInRange(ps, |bs|)
    ensures SameBodies(bs, r) && ValidBodies(r)
    decreases |ps|
  {
    if ps == [] then bs else ApplyPairs(ResolveAt(bs, ps[0], sqrt), ps[1..], sqrt)
  }

  lemma ApplyPairsCons(bs: seq<Body>, p: Pair, rest: seq<Pair>, sqrt: real -> real)
    requires ValidBodies(bs) && p.0 < p.1 < |bs| && PairsInRange(rest, |bs|)
    ensures ApplyPairs(bs, [p] + rest, sqrt) == ApplyPairs(ResolveAt(bs, p, sqrt), rest, sqrt)
  {
    assert ([p] + rest)[0] == p;
    assert ([p] + rest)[1..] == rest;
  }

  /** Resolving `a + b` is resolving `a`, then `b`. */
  lemma {:induction false} ApplyPairsAppend(bs: seq<Body>, a: seq<Pair>, b: seq<Pair>, sqrt: real -> real)
    requires ValidBodies(bs) && PairsInRange(a, |bs|) && PairsInRange(b, |bs|)
    ensures PairsInRange(a + b, |bs|)
    ensures ApplyPairs(bs, a + b, sqrt) == ApplyPairs(ApplyPairs(bs, a, sqrt), b, sqrt)
    decreases |a|
  {
    if a == [] {
      assert a + b == b;
    } else {
      assert (a + b)[1..] == a[1..] + b;
      ApplyPairsAppend(ResolveAt(bs, a[0], sqrt), a[1..], b, sqrt);
    }
  }

  /** A row starts with its first pair. */
  lemma RowCons(i: nat, j: nat, n: nat)
    requires j < n
    ensures Row(i, j, n) == [(i, j)] + Row(i, j + 1, n)
  {
  }

  /** Every pair of a row lies below `n`. */
  lemma RowInRange(i: nat, j: nat, n: nat)
    requires i < j
    ensures PairsInRange(Row(i, j, n), n)
  {
  }

  /** Loop state of the inner loop: `bs` is `bodies` with the pairs `(i, i + 1) ..
      (i, j - 1)` resolved, so resolving the rest of the row finishes the row. */
  predicate RowProgress(bodies: seq<Body>, bs: seq<Body>, i: nat, j: nat, sqrt: real -> real) {
    && i < j <= |bodies|
    && ValidBodies(bodies) && SameBodies(bodies, bs) && ValidBodies(bs)
    && PairsInRange(Row(i, j, |bodies|), |bodies|)
    && PairsInRange(Row(i, i + 1, |bodies|), |bodies|)
    && ApplyPairs(bs, Row(i, j, |bodies|), sqrt) == ApplyPairs(bodies, Row(i, i + 1, |bodies|), sqrt)
  }

  lemma RowStart(bodies: seq<Body>, i: nat, sqrt: real -> real)
    requires ValidBodies(bodies) && i < |bodies|
    ensures RowProgress(bodies, bodies, i, i + 1, sqrt)
  {
    RowInRange(i, i + 1, |bodies|);
  }

  /** One iteration of the inner loop keeps its state. */
  lemma {:induction false} RowStep(bodies: seq<Body>, bs: seq<Body>, i: nat, j: nat, sqrt: real -> real)
    requires RowProgress(bodies, bs, i, j, sqrt) && j < |bodies|
    ensures RowProgress(bodies, ResolveAt(bs, (i, j), sqrt), i, j + 1, sqrt)
  {
    var n := |bodies|;
    var next := ResolveAt(bs, (i, j), sqrt);
    RowCons(i, j, n);
    RowInRange(i, j + 1, n);
    ApplyPairsCons(bs, (i, j), Row(i, j + 1, n), sqrt);
    SameBodiesTransitive(bodies, bs, next);
  }

  lemma RowEnd(bodies: seq<Body>, bs: seq<Body>, i: nat, sqrt: real -> real)
    requires RowProgress(bodies, bs, i, |bodies|, sqrt)
    ensures SameBodies(bodies, bs)
    ensures bs == ApplyPairs(bodies, Row(i, i + 1, |bodies|), sqrt)
  {
    assert Row(i, |bodies|, |bodies|) == [];
  }

  /** The source's inner loop: body `i` against each later body in turn. */
  method ResolveRow(bodies: seq<Body>, i: nat, sqrt: real -> real) returns (bs: seq<Body>)
    requires ValidBodies(bodies) && i < |bodies|
    ensures SameBodies(bodies, bs)
    ensures bs == ApplyPairs(bodies, Row(i, i + 1, |bodies|), sqrt)
  {
    var n := |bodies|;
    bs := bodies;
    var j := i + 1;
    RowStart(bodies, i, sqrt);
    while j < n
      invariant RowProgress(bodies, bs, i, j, sqrt)
      decreases n - j
    {
      RowStep(bodies, bs, i, j, sqrt);
      bs := ResolveAt(bs, (i, j), sqrt);
      j := j + 1;
    }
    RowEnd(bodies, bs, i, sqrt);
  }

  /** The source's nested loop over `i < j`. */
  method ResolveAllPairs(bodies: seq<Body>, sqrt: real -> real) returns (bs: seq<Body>)
    requires ValidBodies(bodies)
    ensures SameBodies(bodies, bs)
    ensures bs == ApplyPairs(bodies, Pairs(|bodies|), sqrt)
  {
    var n := |bodies|;
    bs := bodies;
    var i := 0;
    while i < n
      invariant 0 <= i <= n
      invariant SameBodies(bodies, bs) && ValidBodies(bs)
      invariant ApplyPairs(bs, PairsFrom(i, n), sqrt) == ApplyPairs(bodies, Pairs(n), sqrt)
    {
      ApplyPairsAppend(bs, Row(i, i + 1, n), PairsFrom(i + 1, n), sqrt);
      bs := ResolveRow(bs, i, sqrt);
      i := i + 1;
    }
  }

  /** `Pairs(n)` holds exactly the index pairs `i < j < n`. */
  lemma {:induction false} PairsFromExact(i: nat, n: nat, p: Pair)
    ensures p in PairsFrom(i, n) <==> i <= p.0 < p.1 < n
    decreases n - i
  {
    if i < n {
      var row := Row(i, i + 1, n);
      PairsFromExact(i + 1, n, p);
      if p.0 == i && i < p.1 < n {
        assert row[p.1 - i - 1] == p;
      }
      assert p in row ==> p.0 == i && i < p.1 < n;
    }
  }

  /** The visiting order is strictly increasing in the lexicographic order, so no pair
      is resolved twice. */
  lemma {:induction false} PairsFromSorted(i: nat, n: nat)
    ensures StrictlySorted(PairsFrom(i, n))
    decreases n - i
  {
    if i < n {
      PairsFromSorted(i + 1, n);
      var row := Row(i, i + 1, n);
      var rest := PairsFrom(i + 1, n);
      var all := row + rest;
      forall k, l | 0 <= k < l < |all| ensures LexLess(all[k], all[l]) {
        if l < |row| {
          assert all[k] == (i, i + 1 + k) && all[l] == (i, i + 1 + l);
        } else if k < |row| {
          assert all[k].0 == i && all[l] == rest[l - |row|];
        } else {
          assert all[k] == rest[k - |row|] && all[l] == rest[l - |row|];
        }
      }
    }
  }

  /** Every unordered pair of an `n`-body collection is visited exactly once, in
      lexicographic order. */
  lemma PairsOrder(n: nat)
    ensures forall p: Pair :: p in Pairs(n) <==> p.0 < p.1 < n
    ensures StrictlySorted(Pairs(n))
  {
    forall p: Pair ensures p in Pairs(n) <==> p.0 < p.1 < n {
      PairsFromExact(0, n, p);
    }
    PairsFromSorted(0, n);
  }

  /** Pairs that do not overlap are skipped: a collection with no overlapping pair at
      any point is left as it is. */
  lemma {:induction false} ApplyPairsSeparated(bs: seq<Body>, ps: seq<Pair>, sqrt: real -> real)
    requires ValidBodies(bs) && PairsInRange(ps, |bs|)
    requires forall k, l :: 0 <= k < l < |bs| ==> !Overlapping(bs[k], bs[l], sqrt)
    ensures ApplyPairs(bs, ps, sqrt) == bs
    decreases |ps|
  {
    if ps != [] {
      assert ResolveAt(bs, ps[0], sqrt) == bs;
      ApplyPairsSeparated(bs, ps[1..], sqrt);
    }
  }

  /** A body's linear momentum. */
  function BodyMomentum(b: Body): (r: Vec2) {
    Vec2(b.mass * b.velocity.x, b.mass * b.velocity.y)
  }

  /** The total linear momentum of a collection of bodies. */
  function TotalMomentum(bs: seq<Body>): (r: Vec2)
    decreases |bs|
  {
    if bs == [] then Zero else Add(BodyMomentum(bs[0]), TotalMomentum(bs[1..]))
  }

  /** Replacing one body changes the total momentum by the difference of the two
      bodies' momenta. */
  lemma {:induction false} TotalMomentumUpdate(bs: seq<Body>, i: nat, b: Body)
    requires i < |bs|
    ensures TotalMomentum(bs[i := b]).x == TotalMomentum(bs).x - BodyMomentum(bs[i]).x + BodyMomentum(b).x
    ensures TotalMomentum(bs[i := b]).y == TotalMomentum(bs).y - BodyMomentum(bs[i]).y + BodyMomentum(b).y
    decreases i
  {
    if i == 0 {
      assert bs[i := b][1..] == bs[1..];
    } else {
      assert bs[i := b][1..] == bs[1..][i - 1 := b];
      TotalMomentumUpdate(bs[1..], i - 1, b);
    }
  }

  /** Resolving one pair keeps the total momentum of the whole collection. */
  lemma {:induction false} ResolveAtConservesMomentum(bs: seq<Body>, p: Pair, sqrt: real -> real)
    requires ValidBodies(bs) && p.0 < p.1 < |bs|
    ensures TotalMomentum(ResolveAt(bs, p, sqrt)) == TotalMomentum(bs)
  {
    var c := Collide(bs[p.0], bs[p.1], sqrt);
    CollisionProperties.CollideConservesMomentum(bs[p.0], bs[p.1], sqrt);
    var first := bs[p.0 := c.0];
    TotalMomentumUpdate(bs, p.0, c.0);
    assert first[p.1] == bs[p.1];
    TotalMomentumUpdate(first, p.1, c.1);
    assert ResolveAt(bs, p, sqrt) == first[p.1 := c.1];
  }

  /** The pair phase keeps the total linear momentum: resolving any in-range sequence of
      pairs, in particular `Pairs(|bs|)`, only moves momentum between bodies. */
  lemma {:induction false} ApplyPairsConservesMomentum(bs: seq<Body>, ps: seq<Pair>, sqrt: real -> real)
    requires ValidBodies(bs) && PairsInRange(ps, |bs|)
    ensures TotalMomentum(ApplyPairs(bs, ps, sqrt)) == TotalMomentum(bs)
    decreases |ps|
  {
    if ps != [] {
      ResolveAtConservesMomentum(bs, ps[0], sqrt);
      ApplyPairsConservesMomentum(ResolveAt(bs, ps[0], sqrt), ps[1..], sqrt);
    }
  }
}

=== FILE: vectors.dfy ===
/** Two-component real vectors, the `Math.min`/`Math.max`/`Math.abs` helpers the
    source uses, and the exact square root the engine asks of `Math.sqrt`. */
module Vectors {

  datatype Vec2 = Vec2(x: real, y: real)

  const Zero: Vec2 := Vec2(0.0, 0.0)

  function Add(a: Vec2, b: Vec2): (r: Vec2) {
    Vec2(a.x + b.x, a.y + b.y)
  }

  function Sub(a: Vec2, b: Vec2): (r: Vec2) {
    Vec2(a.x - b.x, a.y - b.y)
  }

  function Dot(a: Vec2, b: Vec2): (r: real) {
    a.x * b.x + a.y * b.y
  }

  /** Squared Euclidean length. */
  function NormSq(a: Vec2): (r: real) {
    a.x * a.x + a.y * a.y
  }

  function Min(a: real, b: real): (r: real) {
    if a <= b then a else b
  }

  function Max(a: real, b: real): (r: real) {
    if a >= b then a else b
  }

  function Abs(a: real): (r: real) {
    if a < 0.0 then -a else a
  }

  /** `Math.max(lo, Math.min(hi, v))`. */
  function Clamp(lo: real, hi: real, v: real): (r: real)
    ensures lo <= hi ==> lo <= r <= hi && (lo <= v <= hi ==> r == v)
  {
    Max(lo, Min(hi, v))
  }

  /** `a` is a strictly positive multiple of the non-zero vector `b`:
      parallel (zero cross product) and pointing the same way (positive dot product). */
  predicate SameDirection(a: Vec2, b: Vec2) {
    a.x * b.y == a.y * b.x && Dot(a, b) > 0.0
  }

  /** `Math.sqrt` is a call into the platform; the model takes it as a parameter and
      states what the properties need of it: it is the exact non-negative square root. */
  ghost predicate IsSqrt(sqrt: real -> real) {
    forall x :: 0.0 <= x ==> 0.0 <= sqrt(x) && sqrt(x) * sqrt(x) == x
  }

  /** Euclidean length through the supplied square root. */
  function Length(v: Vec2, sqrt: real -> real): (r: real) {
    sqrt(NormSq(v))
  }

  lemma NormSqNonNegative(v: Vec2)
    ensures NormSq(v) >= 0.0
  {
  }

  lemma MulNonNegative(x: real, y: real)
    requires 0.0 <= x && 0.0 <= y
    ensures 0.0 <= x * y
  {
  }

  /** A non-zero factor cancels. */
  lemma CancelFactor(x: real, y: real, k: real)
    requires k != 0.0 && x * k == y * k
    ensures x == y
  {
    assert x == x * k / k;
  }

  /** The non-negative square root is unique. */
  lemma {:induction false} RootUnique(s: real, t: real)
    requires 0.0 <= s && 0.0 <= t && s * s == t * t
    ensures s == t
  {
    assert (s - t) * (s + t) == 0.0;
    if s + t == 0.0 {
    } else {
      assert s - t == 0.0;
    }
  }

  /** An exact square root gives back the non-negative number that was squared. */
  lemma SqrtOfSquare(sqrt: real -> real, a: real)
    requires IsSqrt(sqrt)
    requires 0.0 <= a
    ensures sqrt(a * a) == a
  {
    var s := sqrt(a * a);
    assert 0.0 <= s && s * s == a * a;
    RootUnique(s, a);
  }

  lemma DivNonNegative(x: real, y: real)
    requires 0.0 <= x && 0.0 < y
    ensures 0.0 <= x / y
  {
  }

  lemma DivideOut(x: real, y: real, k: real)
    requires k != 0.0 && x * k == y
    ensures x == y / k
  {
  }

  lemma DiffSquares(s: real, t: real)
    ensures (t - s) * (t + s) == t * t - s * s
  {
  }

  /** Square roots are monotone. */
  lemma SqrtMonotone(sqrt: real -> real, a: real, b: real)
    requires IsSqrt(sqrt)
    requires 0.0 <= a <= b
    ensures sqrt(a) <= sqrt(b)
  {
    var s, t := sqrt(a), sqrt(b);
    assert s * s == a && t * t == b && s >= 0.0 && t >= 0.0;
    DiffSquares(s, t);
    if t + s != 0.0 {
      DivNonNegative(b - a, t + s);
      DivideOut(t - s, b - a, t + s);
    }
  }

  /** A vector no longer than `m` has squared norm at most `m * m`. */
  lemma LengthBoundSquared(v: Vec2, sqrt: real -> real, m: real)
    requires IsSqrt(sqrt)
    requires Length(v, sqrt) <= m
    ensures NormSq(v) <= m * m
  {
    NormSqNonNegative(v);
    var s := Length(v, sqrt);
    assert 0.0 <= s && s * s == NormSq(v);
    MulNonNegative(m - s, m + s);
  }

  /** Scaling a vector by `k` scales its squared norm by `k * k`. */
  lemma ScaledNormSqBound(v: Vec2, k: real, bound: real)
    requires NormSq(v) <= bound
    ensures NormSq(Vec2(v.x * k, v.y * k)) <= bound * (k * k)
  {
    assert NormSq(Vec2(v.x * k, v.y * k)) == NormSq(v) * (k * k);
    MulNonNegative(bound - NormSq(v), k * k);
  }
}

=== FILE: walls.dfy ===
/** Phase 3 of a physics step: each body against the four walls of the world,
    tested in the order left, right, top, bottom, each on the state the previous
    test left behind. */
module Walls {
  import opened Vectors
  import opened Bodies

  /** A penetrating body is put back against the left wall, its horizontal velocity
      turned to point right, and its spin taken from its vertical velocity. */
  function ResolveLeft(b: Body): (r: Body)
    requires ValidBody(b)
    ensures SameIdentity(b, r) && r.rotation == b.rotation && r.velocity.y == b.velocity.y
    ensures r.position.y == b.position.y
    ensures b.position.x - b.radius < 0.0 ==> r.position.x == b.radius && r.angularVelocity * b.radius == -b.velocity.y
    ensures b.position.x - b.radius >= 0.0 ==> r == b
  {
    if b.position.x - b.radius < 0.0 then
      b.(position := b.position.(x := b.radius),
         velocity := b.velocity.(x := Abs(b.velocity.x) * b.restitution),
         angularVelocity := -b.velocity.y / b.radius)
    else b
  }

  function ResolveRight(b: Body, width: real): (r: Body)
    requires ValidBody(b)
    ensures SameIdentity(b, r) && r.rotation == b.rotation && r.velocity.y == b.velocity.y
    ensures r.position.y == b.position.y
    ensures b.position.x + b.radius > width ==> r.position.x == width - b.radius && r.angularVelocity * b.radius == -b.velocity.y
    ensures b.position.x + b.radius <= width ==> r == b
  {
    if b.position.x + b.radius > width then
      b.(position := b.position.(x := width - b.radius),
         velocity := b.velocity.(x := -Abs(b.velocity.x) * b.restitution),
         angularVelocity := -b.velocity.y / b.radius)
    else b
  }

  function ResolveTop(b: Body): (r: Body)
    requires ValidBody(b)
    ensures SameIdentity(b, r) && r.rotation == b.rotation && r.velocity.x == b.velocity.x
    ensures r.position.x == b.position.x
    ensures b.position.y - b.radius < 0.0 ==> r.position.y == b.radius && r.angularVelocity * b.radius == b.velocity.x
    ensures b.position.y - b.radius >= 0.0 ==> r == b
  {
    if b.position.y - b.radius < 0.0 then
      b.(position := b.position.(y := b.radius),
         velocity := b.velocity.(y := Abs(b.velocity.y) * b.restitution),
         angularVelocity := b.velocity.x / b.radius)
    else b
  }

  function ResolveBottom(b: Body, height: real): (r: Body)
    requires ValidBody(b)
    ensures SameIdentity(b, r) && r.rotation == b.rotation && r.velocity.x == b.velocity.x
    ensures r.position.x == b.position.x
    ensures b.position.y + b.radius > height ==> r.position.y == height - b.radius && r.angularVelocity * b.radius == b.velocity.x
    ensures b.position.y + b.radius <= height ==> r == b
  {
    if b.position.y + b.radius > height then
      b.(position := b.position.(y := height - b.radius),
         velocity := b.velocity.(y := -Abs(b.velocity.y) * b.restitution),
         angularVelocity := b.velocity.x / b.radius)
    else b
  }

  /** All four walls, in the source's order. */
  function ResolveBounds(b: Body, width: real, height: real): (r: Body)
    requires ValidBody(b)
    ensures SameIdentity(b, r) && r.rotation == b.rotation
    ensures InBounds(b, width, height) ==> r == b
  {
    ResolveBottom(ResolveTop(ResolveRight(ResolveLeft(b), width)), height)
  }

  /** When the world is at least a diameter wide and tall, the resolved body lies
      inside it. */
  lemma {:induction false} ResolveBoundsContains(b: Body, width: real, height: real)
    requires ValidBody(b)
    requires 2.0 * b.radius <= width && 2.0 * b.radius <= height
    ensures InBounds(ResolveBounds(b, width, height), width, height)
  {
    var l := ResolveLeft(b);
    var rt := ResolveRight(l, width);
    var t := ResolveTop(rt);
    var bt := ResolveBottom(t, height);
    assert b.radius <= rt.position.x <= width - b.radius;
    assert b.radius <= bt.position.y <= height - b.radius;
  }

  /** Resolving the walls a second time changes nothing. */
  lemma {:induction false} ResolveBoundsIdempotent(b: Body, width: real, height: real)
    requires ValidBody(b)
    requires 2.0 * b.radius <= width && 2.0 * b.radius <= height
    ensures ResolveBounds(ResolveBounds(b, width, height), width, height) == ResolveBounds(b, width, height)
  {
    ResolveBoundsContains(b, width, height);
  }

  /** A body through the floor comes back moving up (or at rest) with its vertical
      speed scaled by its restitution, and spins at its horizontal velocity over its
      radius. */
  lemma {:induction false} BottomBounce(b: Body, width: real, height: real)
    requires ValidBody(b) && 0.0 <= b.restitution <= 1.0
    requires 2.0 * b.radius <= height
    requires b.position.y + b.radius > height
    ensures var r := ResolveBounds(b, width, height);
      && r.position.y == height - b.radius
      && r.velocity.y <= 0.0
      && Abs(r.velocity.y) == Abs(b.velocity.y) * b.restitution
      && Abs(r.velocity.y) <= Abs(b.velocity.y)
      && r.angularVelocity == r.velocity.x / r.radius
  {
    var t := ResolveTop(ResolveRight(ResolveLeft(b), width));
    assert t.position.y == b.position.y && t.velocity.y == b.velocity.y;
    var r := ResolveBottom(t, height);
    assert r.velocity.y == -Abs(b.velocity.y) * b.restitution;
    assert Abs(b.velocity.y) * b.restitution <= Abs(b.velocity.y) * 1.0;
  }

  /** A body through the left wall comes back moving right (or at rest) with its
      horizontal speed scaled by its restitution; when neither the top nor the bottom
      wall is touched, it spins at minus its vertical velocity over its radius. */
  lemma {:induction false} LeftBounce(b: Body, width: real, height: real)
    requires ValidBody(b) && 0.0 <= b.restitution <= 1.0
    requires 2.0 * b.radius <= width
    requires b.position.x - b.radius < 0.0
    ensures var r := ResolveBounds(b, width, height);
      && r.position.x == b.radius
      && r.velocity.x >= 0.0
      && r.velocity.x == Abs(b.velocity.x) * b.restitution
      && r.velocity.x <= Abs(b.velocity.x)
      && (b.radius <= b.position.y <= height - b.radius ==>
            r.velocity.y == b.velocity.y && r.angularVelocity == -r.velocity.y / r.radius)
  {
    var l := ResolveLeft(b);
    assert l.position.x + l.radius <= width;
    var rt := ResolveRight(l, width);
    assert rt == l;
    assert Abs(b.velocity.x) * b.restitution <= Abs(b.velocity.x) * 1.0;
  }

  /** A body through the right wall comes back moving left (or at rest) with its
      horizontal speed scaled by its restitution; when neither the top nor the bottom
      wall is touched, it spins at minus its vertical velocity over its radius. */
  lemma {:induction false} RightBounce(b: Body, width: real, height: real)
    requires ValidBody(b) && 0.0 <= b.restitution <= 1.0
    requires 2.0 * b.radius <= width
    requires b.position.x + b.radius > width
    ensures var r := ResolveBounds(b, width, height);
      && r.position.x == width - b.radius
      && r.velocity.x <= 0.0
      && Abs(r.velocity.x) == Abs(b.velocity.x) * b.restitution
      && Abs(r.velocity.x) <= Abs(b.velocity.x)
      && (b.radius <= b.position.y <= height - b.radius ==>
            r.velocity.y == b.velocity.y && r.angularVelocity == -r.velocity.y / r.radius)
  {
    var l := ResolveLeft(b);
    assert l == b;
    var rt := ResolveRight(l, width);
    assert rt.velocity.x == -Abs(b.velocity.x) * b.restitution;
    assert Abs(b.velocity.x) * b.restitution <= Abs(b.velocity.x) * 1.0;
  }

  /** A body through the ceiling comes back moving down (or at rest) with its vertical
      speed scaled by its restitution, and spins at its horizontal velocity over its
      radius. */
  lemma {:induction false} TopBounce(b: Body, width: real, height: real)
    requires ValidBody(b) && 0.0 <= b.restitution <= 1.0
    requires 2.0 * b.radius <= height
    requires b.position.y - b.radius < 0.0
    ensures var r := ResolveBounds(b, width, height);
      && r.position.y == b.radius
      && r.velocity.y >= 0.0
      && r.velocity.y == Abs(b.velocity.y) * b.restitution
      && r.velocity.y <= Abs(b.velocity.y)
      && r.angularVelocity == r.velocity.x / r.radius
  {
    var rt := ResolveRight(ResolveLeft(b), width);
    assert rt.position.y == b.position.y && rt.velocity.y == b.velocity.y;
    var t := ResolveTop(rt);
    assert t.position.y == b.radius && t.velocity.y == Abs(b.velocity.y) * b.restitution;
    assert t.angularVelocity == t.velocity.x / t.radius;
    assert t.position.y + t.radius <= height;
    assert ResolveBounds(b, width, height) == t;
    MulNonNegative(Abs(b.velocity.y), b.restitution);
    MulNonNegative(Abs(b.velocity.y), 1.0 - b.restitution);
  }
}

=== FILE: wrappers.dfy ===
/** An optional value: a reading the platform may leave out, a pad that may not be
    mounted, an event the handler may ignore. */
module Wrappers {
  datatype Option<+T> = None | Some(value: T)
}
